=== FILE: README.md ===
# DevQuiz core in Dafny

DevQuiz is a single-page quiz application. A user picks a topic and gets up
to ten shuffled questions on it, answers them one at a time, and finishes to
see a score, a skill level and the elapsed time. Questions come in four
kinds: single choice, multiple choice, fill in the blank, and matching
(called drag-drop in the question bank).

This project models the logic under the screens:

- `types.dfy` (`Types`): the questions, answers, per-question records and
  the quiz result.
- `js_string.dfy` (`JsString`): the JavaScript string operations the scorer
  and the editors rely on: `toLowerCase`, `trim`, `includes`, `join`,
  `slice`, and canonical array-index keys.
- `seqs.dfy` (`Seqs`): sequence facts and permutations of indices.
- `scoring.dfy` (`Scoring`): the per-kind correctness check, the grading of
  a whole quiz, the score, the level thresholds and the elapsed time.
- `session.dfy` (`Session`): the application state machine. It covers
  starting a quiz, recording answers, back/next/finish, leaving, and the
  return home. It also states the invariant every user action keeps.
- `editors.dfy` (`Editors`): the four answer editors and the test that
  decides whether an option is shown as code. For multiple choice this is
  the toggle; for matching it is the pairing state machine with its
  enabled controls.
- `question_text.dfy` (`QuestionText`): the split of question text around
  backtick-quoted code, and how each part is shown.

The application stores answers untyped. Here an answer is a tagged union
(`NoAnswer`, `TextAnswer`, `ListAnswer`, `PairsAnswer`), and the scorer
reproduces what the JavaScript does when the shape does not match the
question kind:

- A list turned into a string is its items joined with commas.
- A map turned into a string is `[object Object]`, unless it has its own
  "toString" entry. Such a map has no `toString` method, so the
  conversion throws a `TypeError`.
- A string read as a list answer uses its length and substring search.
- A string or list read as a map is looked up at canonical index keys.
- A matching question whose correct answer is text or a list compares the
  answer at the index keys "0", "1", … with the characters or items.
- A multiple-choice question whose correct answer is text or a map is never
  correct. When the lengths JavaScript reads from the answer and from the
  correct answer agree, the check throws a `TypeError`. The model records
  that as a missing outcome (`Scoring.Outcome`).

Clock readings and the shuffle are inputs. The start and finish clock
readings are passed in as millisecond values. The shuffle is a permutation
of the topic's question indices.

Some behaviours of the code worth knowing:

- Finish is offered only from the last question.
- An unanswered question counts as correct when its correct answer is
  blank text, an empty list or an empty map.
- Finishing a quiz with no questions does nothing. Neither does finishing a
  quiz in which scoring throws.
- Starting a quiz does not clear the previous result.

## Model

| member | source | states |
|---|---|---|
| Types.ParseQuestionType | types.ts:2-7 | each of the four tags "single", "multiple", "fill", "drag-drop" names exactly one question kind, and reading a kind's tag back gives that kind |
| JsString.TrimEmptyIff | App.tsx:42 | a string trims to empty exactly when every character of it is JavaScript whitespace |
| JsString.TrimIgnoresPadding | App.tsx:42 | whitespace added on either side of a text does not change its trimmed form |
| JsString.ContainsIffOccurs | components/QuestionRenderer.tsx:72 | substring search succeeds exactly when the needle occurs at some index of the text |
| Scoring.Entries | App.tsx:47-50 | a map correct answer is read as it is; a list or text correct answer is read as the map from each index key "0", "1", … to the item or character at that index, with no other keys |
| Scoring.Outcome | App.tsx:41-51 | scoring a question throws in exactly two cases. The first is a single-choice or fill-in question whose answer or correct answer is a map with its own "toString" entry. The second is a multiple-choice question whose correct answer is not a list, where the lengths JavaScript reads from the answer and from the correct answer are equal |
| Scoring.Verdict | App.tsx:41-51 | a correct verdict never comes from a throwing check; single choice and fill-in compare the trimmed lower-cased texts when both convert to strings; multiple choice needs a list correct answer and the length-and-inclusion check; matching compares every entry of the correct answer read as a map |
| Scoring.WellTypedNeverThrows | App.tsx:41-51 | a question whose correct answer has the shape its kind expects throws only when it is a text question and a map that cannot be converted to a string meets it |
| Scoring.OwnToStringThrows | App.tsx:42 | a map with its own "toString" entry makes a single-choice question throw, both as the answer and as the correct answer |
| Scoring.PlainObjectConverts | App.tsx:42 | a map without its own "toString" entry converts to a string without throwing |
| Scoring.PlainObjectsReadAlike | App.tsx:42 | two maps without a "toString" entry read as the same text "[object Object]", so one scores as the answer to the other |
| Scoring.MisshapenMultipleChoice | App.tsx:43-46 | for a multiple-choice question with the correct text "ab", a two-item list and the text "ab" make scoring throw, a one-item list is simply wrong, and no answer is ever correct |
| Scoring.MatchingOverListAcceptsIt | App.tsx:47-50 | a matching question whose correct answer is a list accepts that same list as the answer |
| JsString.IndexKeyIsCanonical | App.tsx:50 | the decimal key of an index is read back as that index when a list or text is looked up as a map |
| Scoring.Grade | App.tsx:37-55 | one record per question, in quiz order: the question's id, the stored answer (none when unanswered), the kind-specific verdict, and time 0 |
| Scoring.CountCorrect | App.tsx:36-53 | the score never exceeds the number of questions, and equals it exactly when every record is correct |
| Scoring.CountCorrectCountsVerdicts | App.tsx:53 | the score is the number of records whose verdict is true |
| Scoring.LevelFor | App.tsx:58-62 | Advanced exactly above 80 percent, Intermediate exactly above 50 and up to 80 percent, Beginner otherwise |
| Scoring.LevelMonotonic | App.tsx:60-62 | a higher score never gives a lower level |
| Scoring.LevelBoundaries | App.tsx:61-62 | the thresholds are strict: 80 and 50 percent stay at the lower level, and 4 of 5, 1 of 2, 9 of 10 and 6 of 10 land as expected |
| Scoring.RoundedSeconds | App.tsx:57 | the elapsed time lies within half a second of the reported whole seconds |
| Scoring.CalculateScore | App.tsx:33-76 | no result exactly when there are no questions or scoring one of them throws; otherwise the total is the question count, the records are the grade, the score counts the correct records, the level follows the thresholds, the time is rounded and the topic name is carried |
| Scoring.TextVerdictIgnoresCaseAndPadding | App.tsx:41-42 | a single-choice or fill-in answer equal to the correct text up to letter case and surrounding whitespace is correct |
| Scoring.ClosureExample | App.tsx:42 | the fill-in answer "  Closure " is correct for the correct answer "closure" |
| Scoring.AbsentAnswerVerdict | App.tsx:41-50 | an unanswered single-choice or fill-in question is correct exactly when its correct answer reads as blank text; multiple choice exactly when its correct answer is an empty list; matching exactly when its correct answer, read as a map, is empty |
| Scoring.MultipleVerdictPermutation | App.tsx:43-46 | the order of the selected options does not affect a multiple-choice verdict |
| Scoring.MultipleVerdictIsSetEquality | App.tsx:44-46 | when the correct list repeats nothing, a multiple-choice answer is correct exactly when it has the same length and the same set of options |
| Scoring.MultipleVerdictLooseOnDuplicates | App.tsx:46 | when the correct list repeats an option, a selection with a different set of options can still be accepted |
| Scoring.MatchingVerdictIsSubmap | App.tsx:47-50 | a matching answer is correct exactly when it pairs every left item of the correct map with its correct right item |
| Scoring.MatchingIgnoresExtraKeys | App.tsx:50 | extra pairs for keys outside the correct map never turn a correct matching answer incorrect |
| Scoring.MatchingMismatchFails | App.tsx:50 | one wrong pair makes a matching answer incorrect |
| Scoring.AllCorrectIsAdvanced | App.tsx:53-62 | when every question is answered correctly, the score equals the total and the level is Advanced |
| Scoring.AnswerAffectsOnlyItsRecord | App.tsx:37-38 | changing one question's answer changes no other question's record, and that question's record carries the new answer |
| Session.Permute | App.tsx:18 | the shuffled questions are the topic's questions, each placed at the position the permutation gives, and each kept exactly as often as before |
| Seqs.PickPermutation | App.tsx:18 | reordering any sequence by a permutation of its indices keeps every entry exactly as often as before |
| Session.FilterTopic | App.tsx:17 | the topic filter keeps exactly the bank's questions on that topic, each as often as in the bank |
| Session.FilterKeepsDistinctIds | App.tsx:17 | filtering a bank with distinct ids keeps the ids distinct |
| Session.StartQuiz | App.tsx:16-26 | the quiz holds min(10, n) of the n questions on the topic, all from the bank and on the topic, none more often than the topic has it, with distinct ids if the bank's are distinct, and all of them when n is at most 10; the cursor is at 0, answers are empty, the topic and start time are set, and the old result is kept |
| Session.HandleAnswer | App.tsx:28-31 | without a question under the cursor nothing changes; otherwise only that question's entry in the answer store is set, and the rest of the state is kept |
| Session.GoBack | App.tsx:154-156 | back moves the cursor one question down, does nothing on the first question, and changes nothing else |
| Session.GoNext | App.tsx:162-168 | next moves the cursor one question up, does nothing on the last question, and changes nothing else |
| Session.FinishQuiz | App.tsx:169-175 | finishing changes something only at the last question; there it shows exactly the calculated result and changes nothing else, or leaves the state unchanged when there is no result |
| Session.Step | App.tsx:85-249 | leaving goes home only when confirmed and not already home; the home button on the result view goes home; choosing a topic starts a quiz, with the cursor on the first question and no answers, only from the home screen; only starting a quiz replaces the questions; only starting a quiz, which clears the answers, and answering change the answers |
| Session.StepPreservesValid | App.tsx:144-175 | every user action keeps the cursor on a question, and keeps a shown result's records equal to the grade of the current questions and answers, its score equal to the correct records and its level following the thresholds |
| Session.RunPreservesValid | App.tsx:144-175 | any sequence of user actions from a valid state ends in a valid state |
| Session.CursorInRange | App.tsx:144-150 | in a valid state with questions, the cursor always names one of them |
| Session.FinishOnlyAtLastQuestion | App.tsx:162-175 | the result view is reached from the quiz only at the last question |
| Session.EmptyQuizCannotFinish | App.tsx:34 | finishing a quiz without questions leaves the state unchanged |
| Session.ThrowingQuestionBlocksFinish | App.tsx:33-55 | when scoring one of the quiz's questions throws, finishing leaves the state unchanged |
| Session.NavigationStopsAtEnds | App.tsx:154-168 | back does nothing on the first question and next does nothing on the last, so the cursor never leaves the quiz |
| Editors.SingleChoiceOfCorrectScores | components/QuestionRenderer.tsx:37-39 | picking the correct option of a single-choice question makes it correct |
| Editors.FillInOfCorrectScores | components/QuestionRenderer.tsx:49-51 | typing the correct text in any letter case, with surrounding whitespace, makes a fill-in question correct |
| Editors.Without | components/QuestionRenderer.tsx:44 | removing an option keeps every other option and drops that one, without adding duplicates |
| Editors.ToggleOption | components/QuestionRenderer.tsx:41-47 | toggling flips membership of that option only, treats a non-list answer as no selection, and never introduces duplicates |
| Editors.WithoutAppended | components/QuestionRenderer.tsx:43-45 | removing an option just appended gives back the original selection |
| Editors.ToggleTwice | components/QuestionRenderer.tsx:41-47 | toggling the same option twice restores the set of selected options, and the list itself when the option was not selected |
| Editors.HandleMatchClick | components/QuestionRenderer.tsx:53-61 | a left click selects that item; a right click with a non-empty selection pairs it, clears the selection and sends the new pairs; otherwise nothing happens |
| Editors.ClearMatch | components/QuestionRenderer.tsx:63-68 | clearing removes exactly that left item's pair, keeps the others and the selection, and sends the new pairs |
| Editors.EnabledStepKeepsPairsInjective | components/QuestionRenderer.tsx:176-213 | with the left button disabled while paired and the right button disabled while used, one enabled click keeps the pairing one-to-one and the selection unpaired |
| Editors.EnabledRunKeepsPairsInjective | components/QuestionRenderer.tsx:176-213 | any sequence of enabled clicks keeps the pairing one-to-one |
| Editors.IsCodeIffMarker | components/QuestionRenderer.tsx:72 | an option is shown as code exactly when it contains ";", ":", a newline, "let " or "const " |
| Editors.IsCodeExtends | components/QuestionRenderer.tsx:72 | text around a code-style option keeps it code-style |
| Editors.IsCodeExamples | components/QuestionRenderer.tsx:72 | "let" alone is plain text and "x: 1" is code |
| QuestionText.MatchAt | components/QuestionText.tsx:10 | a match of the pattern starts at a position exactly when some backtick-quoted code span starts there, and that span is unique |
| QuestionText.SplitFrom | components/QuestionText.tsx:10 | the split from a position yields an odd number of parts that spell out the rest of the text, with code spans at odd positions |
| QuestionText.Split | components/QuestionText.tsx:10 | the parts of question text spell out the text exactly, alternating plain text and code spans, with plain text first and last |
| QuestionText.PlainPartsHoldNoCodeSpan | components/QuestionText.tsx:10 | no plain part contains a code span of its own |
| QuestionText.SplitIsLeftmost | components/QuestionText.tsx:10 | each part sits at its offset in the text; each code part is the match starting there, and no match starts inside a plain part, so matches are taken leftmost first |
| QuestionText.SharedBacktickExample | components/QuestionText.tsx:10 | in "`a`b`" the middle backtick closes the first span, so "b`" stays plain text |
| QuestionText.Classify | components/QuestionText.tsx:11-17 | a part is shown as code exactly when it starts and ends with a backtick, and then as the text between them; otherwise it is shown as it is |
| QuestionText.CodeSpansShowAsCode | components/QuestionText.tsx:10-17 | each code span is shown as non-empty code free of backticks, which between backticks is the span |
| QuestionText.LoneBackticksShowAsEmptyCode | components/QuestionText.tsx:11-13 | a single backtick and a pair of backticks are not code spans, yet each text is shown as one empty code element |
| QuestionText.RenderExample | components/QuestionText.tsx:10-17 | "a `b` c" shows as plain "a ", code "b" and plain " c" |

## Left out

- Rendering: the JSX markup, styles, animations, the topic grid, the
  progress label, the detailed review list and the display components
  (`CorrectMatch`, `CorrectMultiple`, `UserAnswer`, `UserMulitpleAnswer`).
  They show state and do not change it.
- Syntax highlighting with Prism is left out because it only changes
  presentation.
- `services/geminiService.ts` calls a remote language model over the
  network and is not part of this model.
- The question bank and the topic list are data constants. The bank is a
  parameter, and any topic may be chosen.
- `Math.random` in the shuffle becomes a permutation given as input. Whether
  the comparator-based shuffle is fair is not modelled.
- `Date.now` becomes clock readings given as input.
- The floating-point percentage is not kept in the result. The level is
  decided by the exact comparisons `score * 100 > 80 * total` and
  `score * 100 > 50 * total`. With at most ten questions, the only ratios
  that land on a threshold are 1/2 and 4/5, and their floating-point
  percentages are exactly 50 and 80.
- The `confirm` dialog of the leave button becomes a boolean carried by the
  leave action.
- The effect that reloads the matching editor's pairs from the stored answer
  (components/QuestionRenderer.tsx:25-29) is not modelled. The editor state
  machine starts from any pairs.
- The clear mark sits inside the left button, which is disabled while its
  item is paired. Whether the browser delivers its click depends on the
  browser, so the mark is treated as usable whenever it is shown.
- JsString.Lower: lowercases ASCII letters only, while `toLowerCase` folds
  all of Unicode.
- String lengths count characters, not UTF-16 code units.
- Question ids that name properties every JavaScript object inherits (such
  as `constructor`) are not modelled. The answer store is a plain map.
- Editors.LeftDisabled: the same goes for matching left items named like
  inherited properties (`constructor`, `toString`, `valueOf`,
  `__proto__`, …). In the application, the left-button guard
  (components/QuestionRenderer.tsx:180) and the clear mark
  (components/QuestionRenderer.tsx:190-191) read such a property from the
  pairs object. That item starts out disabled, shows its clear mark, and
  can never be paired. The model reads the pairs as a plain map, so it
  calls that button enabled until the item is paired.
- Scoring.Outcome: a `TypeError` thrown while scoring is modelled only as a
  missing outcome. Finishing then leaves the state as it was, and the
  error itself, which React reports, is not modelled.

=== FILE: editors.dfy ===
/**
  The answer editors of a question: picking a single option, toggling an
  option of a multiple-choice question, typing a fill-in answer, pairing
  and unpairing the items of a matching question, and the test that shows
  an option in code style.
 */
module Editors {
  import opened Types
  import opened JsString
  import opened Seqs
  import opened Scoring

  /** Picking option `option` of a single-choice question answers with that option. */
  function HandleSingleChoice(option: string): Answer {
    TextAnswer(option)
  }

  /** Typing `text` into a fill-in question answers with that text. */
  function HandleFillIn(text: string): Answer {
    TextAnswer(text)
  }

  /**
    Picking the correct option of a single-choice question scores it. This
    holds by construction: the option is stored as it is and compared with
    itself after the same normalization.
   */
  lemma SingleChoiceOfCorrectScores(q: Question)
    requires q.kind == Single && q.correctAnswer.CorrectText?
    ensures Verdict(q, HandleSingleChoice(q.correctAnswer.text))
  {
  }

  /** Typing the correct text, in any letter case and with surrounding blanks, scores a fill-in question. */
  lemma FillInOfCorrectScores(q: Question, w1: string, t: string, w2: string)
    requires q.kind == Fill && q.correctAnswer.CorrectText?
    requires AllWhitespace(w1) && AllWhitespace(w2) && Lower(t) == Lower(q.correctAnswer.text)
    ensures Verdict(q, HandleFillIn(w1 + t + w2))
  {
    TextVerdictIgnoresCaseAndPadding(q, w1, t, w2);
  }

  /** The selected options so far: the stored list, or none when the stored answer is not a list. */
  function Selected(current: Answer): seq<string> {
    if current.ListAnswer? then current.items else []
  }

  /** `xs` without any occurrence of `x`, order kept. */
  function Without(xs: seq<string>, x: string): (r: seq<string>)
    ensures forall y :: y in r <==> y in xs && y != x
    ensures |r| <= |xs|
    ensures NoDuplicates(xs) ==> NoDuplicates(r)
    decreases |xs|
  {
    if |xs| == 0 then []
    else if xs[0] == x then Without(xs[1..], x)
    else
      var rest := Without(xs[1..], x);
      assert NoDuplicates(xs) ==> NoDuplicates(xs[1..]) && xs[0] !in xs[1..] by {
        if NoDuplicates(xs) {
          forall i, j | 0 <= i < j < |xs[1..]|
            ensures xs[1..][i] != xs[1..][j]
          {
            assert xs[1..][i] == xs[i + 1] && xs[1..][j] == xs[j + 1];
          }
          forall k | 0 <= k < |xs[1..]|
            ensures xs[1..][k] != xs[0]
          {
            assert xs[1..][k] == xs[k + 1];
          }
        }
      }
      [xs[0]] + rest
  }

  /**
    Toggling option `option` of a multiple-choice question: it is dropped
    when selected and appended otherwise; every other option keeps its
    membership, and a duplicate-free selection stays duplicate-free.
   */
  function ToggleOption(current: Answer, option: string): (next: seq<string>)
    ensures option in next <==> option !in Selected(current)
    ensures forall o :: o != option ==> (o in next <==> o in Selected(current))
    ensures NoDuplicates(Selected(current)) ==> NoDuplicates(next)
  {
    var prev := Selected(current);
    if option in prev then Without(prev, option)
    else
      assert NoDuplicates(prev) ==> NoDuplicates(prev + [option]) by {
        if NoDuplicates(prev) {
          forall i, j | 0 <= i < j < |prev + [option]|
            ensures (prev + [option])[i] != (prev + [option])[j]
          {
            if j == |prev| {
              assert (prev + [option])[i] == prev[i];
            } else {
              assert (prev + [option])[i] == prev[i] && (prev + [option])[j] == prev[j];
            }
          }
        }
      }
      prev + [option]
  }

  lemma {:induction false} WithoutAppended(xs: seq<string>, x: string)
    requires x !in xs
    ensures Without(xs + [x], x) == xs
    decreases |xs|
  {
    if |xs| == 0 {
      assert xs + [x] == [x];
      assert [x][1..] == [];
    } else {
      assert (xs + [x])[0] == xs[0];
      assert (xs + [x])[1..] == xs[1..] + [x];
      WithoutAppended(xs[1..], x);
      assert xs == [xs[0]] + xs[1..];
    }
  }

  /**
    Toggling the same option twice gives back the same set of selected
    options, and exactly the same list when the option was not selected.
   */
  lemma ToggleTwice(current: Answer, option: string)
    ensures Elements(ToggleOption(ListAnswer(ToggleOption(current, option)), option)) == Elements(Selected(current))
    ensures option !in Selected(current) ==>
              ToggleOption(ListAnswer(ToggleOption(current, option)), option) == Selected(current)
  {
    var prev := Selected(current);
    if option !in prev {
      WithoutAppended(prev, option);
    }
  }

  /** The state of a matching question's editor: the left item picked, and the pairs made. */
  datatype MatchingState = MatchingState(left: Option<string>, pairs: map<string, string>)

  datatype Side = LeftSide | RightSide

  /** A selected left item counts only when it is present and not the empty string. */
  predicate Truthy(left: Option<string>) {
    left.Some? && left.value != ""
  }

  /** The new editor state and the pairs sent on as the answer, if any are. */
  datatype MatchOutcome = MatchOutcome(state: MatchingState, emitted: Option<map<string, string>>)

  /**
    A click in a matching question. A left click selects that item; a right
    click pairs the selected item with value `val`, clears the selection and
    sends the new pairs on. A right click without a selection does nothing.
   */
  function HandleMatchClick(st: MatchingState, side: Side, val: string): (r: MatchOutcome)
    ensures side == LeftSide ==> r.state == st.(left := Some(val)) && r.emitted == None
    ensures side == RightSide && !Truthy(st.left) ==> r == MatchOutcome(st, None)
    ensures side == RightSide && Truthy(st.left) ==>
      var l := st.left.value;
      && r.state.left == None
      && r.emitted == Some(r.state.pairs)
      && r.state.pairs.Keys == st.pairs.Keys + {l}
      && r.state.pairs[l] == val
      && (forall k :: k in st.pairs && k != l ==> r.state.pairs[k] == st.pairs[k])
  {
    match side
    case LeftSide => MatchOutcome(st.(left := Some(val)), None)
    case RightSide =>
      if Truthy(st.left) then
        var newPairs := st.pairs[st.left.value := val];
        MatchOutcome(MatchingState(None, newPairs), Some(newPairs))
      else MatchOutcome(st, None)
  }

  /** Removing the pair of left item `l`; the selection stays, the new pairs are sent on. */
  function ClearMatch(st: MatchingState, l: string): (r: MatchOutcome)
    ensures r.state.left == st.left
    ensures r.emitted == Some(r.state.pairs)
    ensures r.state.pairs.Keys == st.pairs.Keys - {l}
    ensures forall k :: k in r.state.pairs ==> r.state.pairs[k] == st.pairs[k]
  {
    var newPairs := st.pairs - {l};
    MatchOutcome(st.(pairs := newPairs), Some(newPairs))
  }

  /** A left item is disabled while it holds a non-empty pair. */
  predicate LeftDisabled(st: MatchingState, l: string) {
    l in st.pairs && st.pairs[l] != ""
  }

  /** A right value is disabled while some left item is paired with it. */
  predicate RightDisabled(st: MatchingState, v: string) {
    v in st.pairs.Values
  }

  datatype MatchEvent = Click(side: Side, val: string) | Clear(item: string)

  /** The controls the editor lets the user press: enabled buttons, and the clear mark of a paired item. */
  predicate Enabled(st: MatchingState, ev: MatchEvent) {
    match ev
    case Click(LeftSide, v) => !LeftDisabled(st, v)
    case Click(RightSide, v) => !RightDisabled(st, v)
    case Clear(l) => LeftDisabled(st, l)
  }

  function Apply(st: MatchingState, ev: MatchEvent): MatchingState {
    match ev
    case Click(side, v) => HandleMatchClick(st, side, v).state
    case Clear(l) => ClearMatch(st, l).state
  }

  /** No two left items are paired with the same value. */
  predicate Injective(pairs: map<string, string>) {
    forall a, b :: a in pairs && b in pairs && a != b ==> pairs[a] != pairs[b]
  }

  /** A selected left item never holds a non-empty pair. */
  predicate SelectionUnpaired(st: MatchingState) {
    Truthy(st.left) ==> !LeftDisabled(st, st.left.value)
  }

  /**
    Through the enabled controls, the pairs stay one-to-one, the selected
    item stays unpaired, and a right click never overwrites a non-empty pair.
   */
  lemma EnabledStepKeepsPairsInjective(st: MatchingState, ev: MatchEvent)
    requires Injective(st.pairs) && SelectionUnpaired(st) && Enabled(st, ev)
    ensures Injective(Apply(st, ev).pairs)
    ensures SelectionUnpaired(Apply(st, ev))
    ensures forall k :: LeftDisabled(st, k) && !ev.Clear? ==>
              k in Apply(st, ev).pairs && Apply(st, ev).pairs[k] == st.pairs[k]
  {
    var next := Apply(st, ev);
    if ev.Click? && ev.side == RightSide && Truthy(st.left) {
      var l := st.left.value;
      forall a, b | a in next.pairs && b in next.pairs && a != b
        ensures next.pairs[a] != next.pairs[b]
      {
        if a == l {
          assert next.pairs[b] == st.pairs[b];
          assert st.pairs[b] in st.pairs.Values;
        } else if b == l {
          assert next.pairs[a] == st.pairs[a];
          assert st.pairs[a] in st.pairs.Values;
        }
      }
    }
  }

  /** The editor state after a sequence of controls. */
  function ApplyAll(st: MatchingState, evs: seq<MatchEvent>): MatchingState
    decreases |evs|
  {
    if |evs| == 0 then st else ApplyAll(Apply(st, evs[0]), evs[1..])
  }

  /** Each control enabled when pressed. */
  predicate EnabledRun(st: MatchingState, evs: seq<MatchEvent>)
    decreases |evs|
  {
    |evs| == 0 || (Enabled(st, evs[0]) && EnabledRun(Apply(st, evs[0]), evs[1..]))
  }

  /** Using only enabled controls, one-to-one pairs stay one-to-one. */
  lemma {:induction false} EnabledRunKeepsPairsInjective(st: MatchingState, evs: seq<MatchEvent>)
    requires Injective(st.pairs) && SelectionUnpaired(st) && EnabledRun(st, evs)
    ensures Injective(ApplyAll(st, evs).pairs)
    decreases |evs|
  {
    if |evs| > 0 {
      EnabledStepKeepsPairsInjective(st, evs[0]);
      EnabledRunKeepsPairsInjective(Apply(st, evs[0]), evs[1..]);
    }
  }

  /**
    An option is shown as code when it contains a semicolon, a colon, a
    line break, "let " or "const ".
   */
  predicate IsCode(opt: string) {
    Contains(opt, ";") || Contains(opt, ":") || Contains(opt, "\n")
    || Contains(opt, "let ") || Contains(opt, "const ")
  }

  /** A code marker starts at index `i` of `s`. */
  predicate CodeMarkerAt(s: string, i: int) {
    || OccursAt(s, ";", i) || OccursAt(s, ":", i) || OccursAt(s, "\n", i)
    || OccursAt(s, "let ", i) || OccursAt(s, "const ", i)
  }

  /** The code test holds exactly when some marker occurs somewhere in the option. */
  lemma IsCodeIffMarker(s: string)
    ensures IsCode(s) <==> exists i :: CodeMarkerAt(s, i)
  {
    ContainsIffOccurs(s, ";");
    ContainsIffOccurs(s, ":");
    ContainsIffOccurs(s, "\n");
    ContainsIffOccurs(s, "let ");
    ContainsIffOccurs(s, "const ");
    if IsCode(s) {
      var i :| || OccursAt(s, ";", i) || OccursAt(s, ":", i) || OccursAt(s, "\n", i)
               || OccursAt(s, "let ", i) || OccursAt(s, "const ", i);
      assert CodeMarkerAt(s, i);
    }
  }

  /** Text around a code-style option keeps it code-style. */
  lemma IsCodeExtends(a: string, s: string, b: string)
    requires IsCode(s)
    ensures IsCode(a + s + b)
  {
    if Contains(s, ";") { ContainsExtends(a, s, b, ";"); }
    if Contains(s, ":") { ContainsExtends(a, s, b, ":"); }
    if Contains(s, "\n") { ContainsExtends(a, s, b, "\n"); }
    if Contains(s, "let ") { ContainsExtends(a, s, b, "let "); }
    if Contains(s, "const ") { ContainsExtends(a, s, b, "const "); }
  }

  /** "let" without a following space is plain text; "x: 1" is code. */
  lemma IsCodeExamples()
    ensures !IsCode("let")
    ensures IsCode("x: 1")
  {
    assert OccursAt("x: 1", ":", 1);
    IsCodeIffMarker("x: 1");
    forall i
      ensures !CodeMarkerAt("let", i)
    {
      if 0 <= i < 3 {
        assert "let"[i..i + 1][0] == "let"[i];
      }
    }
    IsCodeIffMarker("let");
  }
}

=== FILE: js_string.dfy ===
/**
  The few JavaScript string operations the quiz engine relies on:
  `toLowerCase` (ASCII letters only), `trim`, `includes`, `join`,
  `slice`, and the reading of a property key as an array index.
 */
module JsString {
  import opened Types

  /** White space and line terminators as `String.prototype.trim` strips them. */
  predicate IsWhitespace(c: char) {
    || c == ' ' || c == '\t' || c == '\n' || c == '\r'
    || c == '\U{000B}' || c == '\U{000C}'
    || c == '\U{00A0}' || c == '\U{FEFF}' || c == '\U{1680}'
    || ('\U{2000}' <= c <= '\U{200A}')
    || c == '\U{2028}' || c == '\U{2029}'
    || c == '\U{202F}' || c == '\U{205F}' || c == '\U{3000}'
  }

  predicate AllWhitespace(s: string) {
    forall i :: 0 <= i < |s| ==> IsWhitespace(s[i])
  }

  function LowerChar(c: char): char {
    if 'A' <= c <= 'Z' then (c as int + 32) as char else c
  }

  function Lower(s: string): (r: string)
    ensures |r| == |s|
    ensures forall i :: 0 <= i < |s| ==> r[i] == LowerChar(s[i])
  {
    seq(|s|, i requires 0 <= i < |s| => LowerChar(s[i]))
  }

  /** Drops leading white space. */
  function TrimStart(s: string): (r: string)
    ensures |r| <= |s| && r == s[|s| - |r|..]
    ensures AllWhitespace(s[..|s| - |r|])
    ensures r == [] || !IsWhitespace(r[0])
  {
    if |s| > 0 && IsWhitespace(s[0]) then
      var r := TrimStart(s[1..]);
      TrimStartStep(s, r);
      r
    else s
  }

  /** Leading white space before the trimmed rest of `s[1..]` is leading white space of `s`. */
  lemma TrimStartStep(s: string, r: string)
    requires |s| > 0 && IsWhitespace(s[0])
    requires |r| <= |s[1..]| && r == s[1..][|s[1..]| - |r|..]
    requires AllWhitespace(s[1..][..|s[1..]| - |r|])
    ensures |r| <= |s| && r == s[|s| - |r|..]
    ensures AllWhitespace(s[..|s| - |r|])
  {
    var t := s[1..];
    assert s[|s| - |r|..] == t[|t| - |r|..];
    forall i | 0 <= i < |s| - |r|
      ensures IsWhitespace(s[i])
    {
      if i > 0 {
        assert s[i] == t[..|t| - |r|][i - 1];
      }
    }
  }

  /** Drops trailing white space. */
  function TrimEnd(s: string): (r: string)
    ensures |r| <= |s| && r == s[..|r|]
    ensures AllWhitespace(s[|r|..])
    ensures r == [] || !IsWhitespace(r[|r| - 1])
  {
    if |s| > 0 && IsWhitespace(s[|s| - 1]) then
      var r := TrimEnd(s[..|s| - 1]);
      TrimEndStep(s, r);
      r
    else s
  }

  /** Trailing white space after the trimmed rest of `s[..|s| - 1]` is trailing white space of `s`. */
  lemma TrimEndStep(s: string, r: string)
    requires |s| > 0 && IsWhitespace(s[|s| - 1])
    requires |r| <= |s[..|s| - 1]| && r == s[..|s| - 1][..|r|]
    requires AllWhitespace(s[..|s| - 1][|r|..])
    ensures |r| <= |s| && r == s[..|r|]
    ensures AllWhitespace(s[|r|..])
  {
    var t := s[..|s| - 1];
    assert s[..|r|] == t[..|r|];
    forall i | |r| <= i < |s|
      ensures IsWhitespace(s[i])
    {
      if i < |s| - 1 {
        assert s[i] == t[|r|..][i - |r|];
      }
    }
  }

  function Trim(s: string): string {
    TrimEnd(TrimStart(s))
  }

  /** Trimming yields the empty string exactly when there is nothing but white space. */
  lemma TrimEmptyIff(s: string)
    ensures Trim(s) == [] <==> AllWhitespace(s)
  {
    var t := TrimStart(s);
    if AllWhitespace(s) {
      TrimStartSkips(s, []);
      assert s + [] == s;
    }
    if Trim(s) == [] {
      assert AllWhitespace(t[0..]);
      assert s == s[..|s| - |t|] + t;
    }
  }

  lemma {:induction false} TrimStartSkips(w: string, s: string)
    requires AllWhitespace(w)
    ensures TrimStart(w + s) == TrimStart(s)
  {
    if w != [] {
      assert (w + s)[0] == w[0];
      assert (w + s)[1..] == w[1..] + s;
      TrimStartSkips(w[1..], s);
    } else {
      assert w + s == s;
    }
  }

  lemma {:induction false} TrimEndSkips(s: string, w: string)
    requires AllWhitespace(w)
    ensures TrimEnd(s + w) == TrimEnd(s)
  {
    if w != [] {
      assert (s + w)[|s + w| - 1] == w[|w| - 1];
      assert (s + w)[..|s + w| - 1] == s + w[..|w| - 1];
      TrimEndSkips(s, w[..|w| - 1]);
    } else {
      assert s + w == s;
    }
  }

  lemma {:induction false} TrimStartKeepsTail(s: string, w: string)
    requires !AllWhitespace(s)
    ensures TrimStart(s + w) == TrimStart(s) + w
  {
    assert s != [];
    if IsWhitespace(s[0]) {
      assert (s + w)[1..] == s[1..] + w;
      assert !AllWhitespace(s[1..]) by {
        var i :| 0 <= i < |s| && !IsWhitespace(s[i]);
        assert s[1..][i - 1] == s[i];
      }
      TrimStartKeepsTail(s[1..], w);
    }
  }

  /** `trim` ignores white space added on either side. */
  lemma TrimIgnoresPadding(w1: string, s: string, w2: string)
    requires AllWhitespace(w1) && AllWhitespace(w2)
    ensures Trim(w1 + s + w2) == Trim(s)
  {
    assert w1 + s + w2 == w1 + (s + w2);
    TrimStartSkips(w1, s + w2);
    if AllWhitespace(s) {
      assert AllWhitespace(s + w2);
      TrimEmptyIff(s + w2);
      TrimEmptyIff(s);
    } else {
      TrimStartKeepsTail(s, w2);
      TrimEndSkips(TrimStart(s), w2);
    }
  }

  lemma LowerKeepsWhitespace(w: string)
    requires AllWhitespace(w)
    ensures Lower(w) == w
  {
  }

  lemma LowerDistributes(a: string, b: string)
    ensures Lower(a + b) == Lower(a) + Lower(b)
  {
  }

  /** `needle` occurs in `hay` starting at index `i`. */
  predicate OccursAt(hay: string, needle: string, i: int) {
    0 <= i && i + |needle| <= |hay| && hay[i..i + |needle|] == needle
  }

  /** `hay.includes(needle)`: a scan from the front of `hay`. */
  predicate Contains(hay: string, needle: string)
    decreases |hay|
  {
    (|needle| <= |hay| && hay[..|needle|] == needle)
    || (|hay| > 0 && Contains(hay[1..], needle))
  }

  /** Where the scan finds `needle`, it occurs. */
  lemma {:induction false} ContainsWitness(hay: string, needle: string) returns (i: int)
    requires Contains(hay, needle)
    ensures OccursAt(hay, needle, i)
    decreases |hay|
  {
    if |needle| <= |hay| && hay[..|needle|] == needle {
      i := 0;
    } else {
      var j := ContainsWitness(hay[1..], needle);
      assert hay[1..][j..j + |needle|] == hay[j + 1..j + 1 + |needle|];
      i := j + 1;
    }
  }

  /** An occurrence at index `i` is found by the scan. */
  lemma {:induction false} OccurrenceFound(hay: string, needle: string, i: int)
    requires OccursAt(hay, needle, i)
    ensures Contains(hay, needle)
    decreases i
  {
    if i > 0 {
      assert hay[1..][i - 1..i - 1 + |needle|] == hay[i..i + |needle|];
      OccurrenceFound(hay[1..], needle, i - 1);
    }
  }

  /** The scan finds `needle` exactly when it occurs at some index. */
  lemma ContainsIffOccurs(hay: string, needle: string)
    ensures Contains(hay, needle) <==> exists i :: OccursAt(hay, needle, i)
  {
    if Contains(hay, needle) {
      var i := ContainsWitness(hay, needle);
    }
    if exists i :: OccursAt(hay, needle, i) {
      var i :| OccursAt(hay, needle, i);
      OccurrenceFound(hay, needle, i);
    }
  }

  /** Anything `hay` contains, a longer string around it contains too. */
  lemma ContainsExtends(a: string, hay: string, b: string, needle: string)
    requires Contains(hay, needle)
    ensures Contains(a + hay + b, needle)
  {
    ContainsIffOccurs(hay, needle);
    var i :| OccursAt(hay, needle, i);
    assert (a + hay + b)[|a| + i..|a| + i + |needle|] == hay[i..i + |needle|];
    assert OccursAt(a + hay + b, needle, |a| + i);
    ContainsIffOccurs(a + hay + b, needle);
  }

  /** `items.join(sep)`. */
  function Join(items: seq<string>, sep: string): string
    decreases |items|
  {
    if |items| == 0 then ""
    else if |items| == 1 then items[0]
    else items[0] + sep + Join(items[1..], sep)
  }

  /** `t.slice(start, end)` with JavaScript's handling of negative and out-of-range bounds. */
  function Slice(t: string, start: int, end: int): (r: string)
    ensures |r| <= |t|
  {
    var len := |t|;
    var from := if start < 0 then (if len + start < 0 then 0 else len + start)
                else (if start < len then start else len);
    var to := if end < 0 then (if len + end < 0 then 0 else len + end)
              else (if end < len then end else len);
    if from < to then t[from..to] else ""
  }

  predicate IsDigit(c: char) {
    '0' <= c <= '9'
  }

  function DecimalValue(k: string): nat
    requires forall i :: 0 <= i < |k| ==> IsDigit(k[i])
    decreases |k|
  {
    if |k| == 0 then 0
    else
      var last := k[|k| - 1];
      assert IsDigit(last);
      DecimalValue(k[..|k| - 1]) * 10 + (last as int - '0' as int)
  }

  /**
    The index a property key names on an array or string value: a key is an
    index only in canonical decimal form ("0", "7", "12", but not "07" or "").
   */
  function CanonicalIndex(k: string): (r: Option<nat>)
    ensures r.Some? ==> |k| > 0 && (k[0] != '0' || k == "0")
  {
    if |k| == 0 || (|k| > 1 && k[0] == '0') then None
    else if forall i :: 0 <= i < |k| ==> IsDigit(k[i]) then Some(DecimalValue(k))
    else None
  }

  function DigitChar(d: nat): char
    requires d < 10
  {
    ('0' as int + d) as char
  }

  /** The property key JavaScript uses for index `i`: its decimal numeral. */
  function IndexKey(i: nat): (k: string)
    ensures |k| > 0 && (k[0] != '0' || k == "0")
    ensures forall j :: 0 <= j < |k| ==> IsDigit(k[j])
    ensures DecimalValue(k) == i
    decreases i
  {
    if i < 10 then
      assert DecimalValue([DigitChar(i)]) == DecimalValue([]) * 10 + i;
      [DigitChar(i)]
    else
      var h := IndexKey(i / 10);
      var k := h + [DigitChar(i % 10)];
      assert k[..|k| - 1] == h;
      k
  }

  /** Reading an index key back gives the index: index keys are canonical. */
  lemma IndexKeyIsCanonical(i: nat)
    ensures CanonicalIndex(IndexKey(i)) == Some(i)
  {
  }

  /** Distinct indices have distinct keys. */
  lemma IndexKeyInjective(i: nat, j: nat)
    ensures IndexKey(i) == IndexKey(j) ==> i == j
  {
  }
}

=== FILE: question_text.dfy ===
/**
  Inline code in question text: the text is split around every piece
  written between backticks, and each resulting part is shown either as
  plain text or, when it starts and ends with a backtick, as code.
 */
module QuestionText {
  import opened Types
  import opened JsString

  /** A piece of text matched in full by the pattern /`[^`]+`/. */
  predicate IsCodeSpan(t: string) {
    && |t| >= 3
    && t[0] == '`'
    && t[|t| - 1] == '`'
    && forall i :: 1 <= i < |t| - 1 ==> t[i] != '`'
  }

  /** Some piece of `t` is a code span. */
  predicate HasCodeSpan(t: string) {
    exists a, b :: 0 <= a < b <= |t| && IsCodeSpan(t[a..b])
  }

  /** The first backtick at or after index `from`. */
  function NextBacktick(s: string, from: nat): (r: Option<nat>)
    requires from <= |s|
    ensures r.Some? ==> from <= r.value < |s| && s[r.value] == '`'
    ensures r.Some? ==> forall i :: from <= i < r.value ==> s[i] != '`'
    ensures r.None? ==> forall i :: from <= i < |s| ==> s[i] != '`'
    decreases |s| - from
  {
    if from == |s| then None
    else if s[from] == '`' then Some(from)
    else NextBacktick(s, from + 1)
  }

  /**
    Where a match of /`[^`]+`/ that starts at index `q` ends. A match
    exists exactly when some piece of `s` from `q` on is a code span, and
    then that piece is unique.
   */
  function MatchAt(s: string, q: nat): (r: Option<nat>)
    requires q <= |s|
    ensures r.Some? ==> q < r.value <= |s| && IsCodeSpan(s[q..r.value])
    ensures forall e :: q < e <= |s| && IsCodeSpan(s[q..e]) ==> r == Some(e)
  {
    if q < |s| && s[q] == '`' then
      match NextBacktick(s, q + 1)
      case Some(j) =>
        if j > q + 1 then
          var span := s[q..j + 1];
          assert forall i :: 1 <= i < |span| - 1 ==> span[i] == s[q + i];
          MatchEnds(s, q, Some(j + 1));
          Some(j + 1)
        else
          MatchEnds(s, q, None);
          None
      case None =>
        MatchEnds(s, q, None);
        None
    else
      MatchEnds(s, q, None);
      None
  }

  /** A code span from `q` to `e` ends at the first backtick after `q`. */
  lemma SpanEnd(s: string, q: nat, e: nat)
    requires q < e <= |s| && IsCodeSpan(s[q..e])
    ensures s[q] == '`' && e - 1 > q + 1
    ensures NextBacktick(s, q + 1) == Some(e - 1)
  {
    var span := s[q..e];
    assert s[q] == span[0];
    assert s[e - 1] == span[|span| - 1];
    forall i | q + 1 <= i < e - 1
      ensures s[i] != '`'
    {
      assert s[i] == span[i - q];
    }
  }

  /** Any code span starting at `q` ends just after the first backtick following `q`. */
  lemma MatchEnds(s: string, q: nat, r: Option<nat>)
    requires q <= |s|
    requires q < |s| && s[q] == '`' && NextBacktick(s, q + 1).Some? && NextBacktick(s, q + 1).value > q + 1
             ==> r == Some(NextBacktick(s, q + 1).value + 1)
    requires !(q < |s| && s[q] == '`' && NextBacktick(s, q + 1).Some? && NextBacktick(s, q + 1).value > q + 1)
             ==> r == None
    ensures forall e :: q < e <= |s| && IsCodeSpan(s[q..e]) ==> r == Some(e)
  {
    forall e | q < e <= |s| && IsCodeSpan(s[q..e])
      ensures r == Some(e)
    {
      SpanEnd(s, q, e);
    }
  }

  /** The parts concatenated in order. */
  function Concat(parts: seq<string>): string
    decreases |parts|
  {
    if |parts| == 0 then "" else parts[0] + Concat(parts[1..])
  }

  /**
    `s.split(/(`[^`]+`)/)`, continued from scan position `q` with the
    current plain part starting at `p`: at each position where the pattern
    matches, the plain part so far and the match itself are emitted, and
    scanning resumes after the match; the rest of the text ends the list.
   */
  function SplitFrom(s: string, p: nat, q: nat): (parts: seq<string>)
    requires p <= q <= |s|
    ensures |parts| % 2 == 1
    ensures Concat(parts) == s[p..]
    ensures forall i :: 0 <= i < |parts| && i % 2 == 1 ==> IsCodeSpan(parts[i])
    decreases |s| - q
  {
    if q == |s| then
      assert Concat([s[p..]]) == s[p..] + Concat([]);
      [s[p..]]
    else
      match MatchAt(s, q)
      case None => SplitFrom(s, p, q + 1)
      case Some(e) =>
        var rest := SplitFrom(s, e, e);
        var parts := [s[p..q], s[q..e]] + rest;
        assert parts[1..] == [s[q..e]] + rest;
        assert parts[1..][1..] == rest;
        assert s[p..] == s[p..q] + s[q..e] + s[e..];
        assert forall i :: 2 <= i < |parts| ==> parts[i] == rest[i - 2];
        parts
  }

  /**
    The parts of question text: odd in number, together spelling the text
    exactly, with the code spans at the odd positions.
   */
  function Split(s: string): (parts: seq<string>)
    ensures |parts| % 2 == 1
    ensures Concat(parts) == s
    ensures forall i :: 0 <= i < |parts| && i % 2 == 1 ==> IsCodeSpan(parts[i])
  {
    SplitFrom(s, 0, 0)
  }

  /** No code span lies within a stretch where no match starts. */
  lemma NoCodeSpanWhereNoMatch(s: string, p: nat, q: nat)
    requires p <= q <= |s|
    requires forall r :: p <= r < q ==> MatchAt(s, r).None?
    ensures !HasCodeSpan(s[p..q])
  {
    var t := s[p..q];
    forall a, b | 0 <= a < b <= |t|
      ensures !IsCodeSpan(t[a..b])
    {
      assert forall k :: 0 <= k < b - a ==> t[a..b][k] == s[p + a + k];
      assert t[a..b] == s[p + a..p + b];
      assert MatchAt(s, p + a).None?;
    }
  }

  lemma {:induction false} SplitFromPlainParts(s: string, p: nat, q: nat)
    requires p <= q <= |s|
    requires forall r :: p <= r < q ==> MatchAt(s, r).None?
    ensures forall i :: 0 <= i < |SplitFrom(s, p, q)| && i % 2 == 0 ==> !HasCodeSpan(SplitFrom(s, p, q)[i])
    decreases |s| - q
  {
    var parts := SplitFrom(s, p, q);
    if q == |s| {
      NoCodeSpanWhereNoMatch(s, p, q);
      assert s[p..q] == s[p..];
      assert parts == [s[p..q]];
    } else {
      match MatchAt(s, q)
      case None =>
        SplitFromPlainParts(s, p, q + 1);
      case Some(e) =>
        NoCodeSpanWhereNoMatch(s, p, q);
        SplitFromPlainParts(s, e, e);
        var rest := SplitFrom(s, e, e);
        assert forall i :: 2 <= i < |parts| ==> parts[i] == rest[i - 2];
    }
  }

  /** The plain parts between the code spans hold no code span of their own. */
  lemma PlainPartsHoldNoCodeSpan(s: string)
    ensures forall i :: 0 <= i < |Split(s)| && i % 2 == 0 ==> !HasCodeSpan(Split(s)[i])
  {
    SplitFromPlainParts(s, 0, 0);
  }

  /** No match of the pattern starts at an index in `[p, q)`. */
  predicate NoMatchIn(s: string, p: int, q: int)
    requires 0 <= p && q <= |s|
  {
    forall r :: p <= r < q ==> MatchAt(s, r).None?
  }

  /** Where part `i` starts within the concatenation of `parts`. */
  function Offset(parts: seq<string>, i: nat): nat
    requires i <= |parts|
  {
    |Concat(parts[..i])|
  }

  lemma {:induction false} ConcatAppend(a: seq<string>, b: seq<string>)
    ensures Concat(a + b) == Concat(a) + Concat(b)
    decreases |a|
  {
    if |a| == 0 {
      assert a + b == b;
    } else {
      assert (a + b)[1..] == a[1..] + b;
      ConcatAppend(a[1..], b);
    }
  }

  /** Part `i` is the piece of the concatenation that starts at its offset. */
  lemma PartAtOffset(parts: seq<string>, i: nat)
    requires i < |parts|
    ensures Offset(parts, i) + |parts[i]| <= |Concat(parts)|
    ensures Concat(parts)[Offset(parts, i)..Offset(parts, i) + |parts[i]|] == parts[i]
  {
    assert parts == parts[..i] + ([parts[i]] + parts[i + 1..]);
    ConcatAppend(parts[..i], [parts[i]] + parts[i + 1..]);
    ConcatAppend([parts[i]], parts[i + 1..]);
    assert Concat([parts[i]]) == parts[i] + Concat([]);
  }

  /** Behind two leading parts, offsets grow by their lengths. */
  lemma OffsetBehindTwo(a: string, b: string, rest: seq<string>, i: nat)
    requires 2 <= i <= |rest| + 2
    ensures Offset([a, b] + rest, i) == |a| + |b| + Offset(rest, i - 2)
  {
    var parts := [a, b] + rest;
    var front := rest[..i - 2];
    assert parts[..i] == [a, b] + front;
    assert ([a, b] + front)[1..] == [b] + front;
    assert ([b] + front)[1..] == front;
    assert Concat([a, b] + front) == a + Concat([b] + front);
    assert Concat([b] + front) == b + Concat(front);
  }

  /** The plain parts of `parts`, placed from index `p` of `s` on, lie where no match starts. */
  predicate PlainPartsUnmatched(s: string, p: nat, parts: seq<string>) {
    forall i :: 0 <= i < |parts| && i % 2 == 0 ==>
      && p + Offset(parts, i) + |parts[i]| <= |s|
      && NoMatchIn(s, p + Offset(parts, i), p + Offset(parts, i) + |parts[i]|)
  }

  /** A plain part without a match, a match, then parts placed after the match. */
  lemma UnmatchedBehindMatch(s: string, p: nat, q: nat, e: nat, rest: seq<string>)
    requires p <= q < e <= |s|
    requires NoMatchIn(s, p, q)
    requires PlainPartsUnmatched(s, e, rest)
    ensures PlainPartsUnmatched(s, p, [s[p..q], s[q..e]] + rest)
  {
    var parts := [s[p..q], s[q..e]] + rest;
    forall i | 0 <= i < |parts| && i % 2 == 0
      ensures p + Offset(parts, i) + |parts[i]| <= |s|
      ensures NoMatchIn(s, p + Offset(parts, i), p + Offset(parts, i) + |parts[i]|)
    {
      if i == 0 {
        assert parts[..0] == [];
      } else {
        OffsetBehindTwo(s[p..q], s[q..e], rest, i);
        assert parts[i] == rest[i - 2];
      }
    }
  }

  /**
    The plain parts of the split from `p` lie where no match starts: every
    match is taken at the first position where one starts.
   */
  lemma {:induction false} SplitFromLeftmost(s: string, p: nat, q: nat)
    requires p <= q <= |s|
    requires NoMatchIn(s, p, q)
    ensures PlainPartsUnmatched(s, p, SplitFrom(s, p, q))
    decreases |s| - q
  {
    if q == |s| {
      var parts := SplitFrom(s, p, q);
      assert parts == [s[p..]];
      assert parts[..0] == [];
    } else {
      match MatchAt(s, q)
      case None =>
        assert NoMatchIn(s, p, q + 1);
        SplitFromLeftmost(s, p, q + 1);
      case Some(e) =>
        SplitFromLeftmost(s, e, e);
        UnmatchedBehindMatch(s, p, q, e, SplitFrom(s, e, e));
    }
  }

  /** A code span at offset `o` is the match that starts there. */
  lemma CodePartIsMatch(s: string, o: nat, t: string)
    requires o + |t| <= |s| && t == s[o..o + |t|] && IsCodeSpan(t)
    ensures MatchAt(s, o) == Some(o + |t|)
  {
    var m := MatchAt(s, o);
  }

  /** What the split guarantees of its part `i`. */
  predicate PartPlaced(s: string, parts: seq<string>, i: nat)
    requires i < |parts|
  {
    && Offset(parts, i) + |parts[i]| <= |s|
    && parts[i] == s[Offset(parts, i)..Offset(parts, i) + |parts[i]|]
    && (i % 2 == 0 ==> NoMatchIn(s, Offset(parts, i), Offset(parts, i) + |parts[i]|))
    && (i % 2 == 1 ==> MatchAt(s, Offset(parts, i)) == Some(Offset(parts, i) + |parts[i]|))
  }

  lemma PartOfSplitPlaced(s: string, parts: seq<string>, i: nat)
    requires Concat(parts) == s && i < |parts|
    requires i % 2 == 1 ==> IsCodeSpan(parts[i])
    requires i % 2 == 0 ==> Offset(parts, i) + |parts[i]| <= |s| &&
                            NoMatchIn(s, Offset(parts, i), Offset(parts, i) + |parts[i]|)
    ensures PartPlaced(s, parts, i)
  {
    PartAtOffset(parts, i);
    if i % 2 == 1 {
      CodePartIsMatch(s, Offset(parts, i), parts[i]);
    }
  }

  /**
    The split of question text is the one JavaScript computes: each code
    part is the match starting at its offset, and no match starts inside a
    plain part, so every match is taken at the leftmost position it can be.
   */
  lemma SplitIsLeftmost(s: string)
    ensures forall i :: 0 <= i < |Split(s)| ==> PartPlaced(s, Split(s), i)
  {
    var parts := Split(s);
    SplitFromLeftmost(s, 0, 0);
    assert PlainPartsUnmatched(s, 0, parts);
    forall i | 0 <= i < |parts|
      ensures PartPlaced(s, parts, i)
    {
      PartOfSplitPlaced(s, parts, i);
    }
  }

  /** A backtick that closes one code span does not open the next: "`a`b`" splits as "", "`a`", "b`". */
  lemma SharedBacktickExample()
    ensures Split("`a`b`") == ["", "`a`", "b`"]
  {
    var s := "`a`b`";
    assert NextBacktick(s, 1) == Some(2);
    assert MatchAt(s, 0) == Some(3);
    assert MatchAt(s, 3) == None;
    assert NextBacktick(s, 5) == None;
    assert MatchAt(s, 4) == None;
    assert SplitFrom(s, 3, 5) == ["b`"];
    assert SplitFrom(s, 3, 4) == ["b`"];
    assert SplitFrom(s, 3, 3) == ["b`"];
    assert s[0..0] == "" && s[0..3] == "`a`";
  }

  /** How a part is shown. */
  datatype Segment = Plain(text: string) | Code(code: string)

  /**
    A part that starts and ends with a backtick is shown as code without
    its first and last character; any other part is shown as it is.
   */
  function Classify(part: string): (seg: Segment)
    ensures seg.Code? <==> |part| > 0 && part[0] == '`' && part[|part| - 1] == '`'
    ensures seg.Plain? ==> seg.text == part
    ensures seg.Code? && |part| >= 2 ==> part == "`" + seg.code + "`"
    ensures seg.Code? && |part| < 2 ==> seg.code == ""
  {
    if |part| > 0 && part[0] == '`' && part[|part| - 1] == '`' then Code(Slice(part, 1, -1))
    else Plain(part)
  }

  function Render(s: string): (segs: seq<Segment>)
    ensures |segs| == |Split(s)|
    ensures forall i :: 0 <= i < |segs| ==> segs[i] == Classify(Split(s)[i])
  {
    var parts := Split(s);
    seq(|parts|, i requires 0 <= i < |parts| => Classify(parts[i]))
  }

  /**
    Each code span is shown as code: a non-empty content free of backticks
    which, put back between backticks, is the span.
   */
  lemma CodeSpansShowAsCode(s: string, i: nat)
    requires i < |Split(s)| && i % 2 == 1
    ensures Render(s)[i].Code?
    ensures |Render(s)[i].code| > 0
    ensures forall k :: 0 <= k < |Render(s)[i].code| ==> Render(s)[i].code[k] != '`'
    ensures "`" + Render(s)[i].code + "`" == Split(s)[i]
  {
    var part := Split(s)[i];
    var code := Render(s)[i].code;
    assert part == "`" + code + "`";
    forall k | 0 <= k < |code|
      ensures code[k] != '`'
    {
      assert code[k] == part[k + 1];
    }
  }

  /**
    A lone backtick, or two backticks in a row, is not a code span, yet it
    is shown as empty code: the two texts are shown alike.
   */
  lemma LoneBackticksShowAsEmptyCode()
    ensures Render("`") == [Code("")]
    ensures Render("``") == [Code("")]
  {
    assert MatchAt("`", 0) == None;
    assert SplitFrom("`", 0, 1) == ["`"];
    assert Split("`") == ["`"];
    assert MatchAt("``", 0) == None;
    assert MatchAt("``", 1) == None;
    assert SplitFrom("``", 0, 2) == ["``"];
    assert SplitFrom("``", 0, 1) == ["``"];
    assert Split("``") == ["``"];
  }

  /** "a `b` c" shows as plain "a ", code "b" and plain " c". */
  lemma RenderExample()
    ensures Render("a `b` c") == [Plain("a "), Code("b"), Plain(" c")]
  {
    var s := "a `b` c";
    assert MatchAt(s, 0) == None;
    assert MatchAt(s, 1) == None;
    assert NextBacktick(s, 3) == Some(4);
    assert MatchAt(s, 2) == Some(5);
    assert NextBacktick(s, 6) == None;
    assert MatchAt(s, 5) == None;
    assert MatchAt(s, 6) == None;
    assert SplitFrom(s, 5, 7) == [" c"];
    assert SplitFrom(s, 5, 6) == [" c"];
    assert SplitFrom(s, 5, 5) == [" c"];
    assert s[0..2] == "a " && s[2..5] == "`b`";
    assert SplitFrom(s, 0, 2) == ["a ", "`b`", " c"];
    assert SplitFrom(s, 0, 1) == ["a ", "`b`", " c"];
    assert Split(s) == ["a ", "`b`", " c"];
    assert Classify("`b`") == Code("b");
  }
}

=== FILE: scoring.dfy ===
/**
  The scoring engine: a verdict per question according to its type, then
  the per-question records, the score, the proficiency level and the time
  spent, gathered into a quiz result.
 */
module Scoring {
  import opened Types
  import opened JsString
  import opened Seqs

  /**
    The text a stored answer reads as once a missing or empty answer is
    replaced by the empty string and the value is converted to a string
    (an array joins its items with commas, an object reads "[object Object]").
   */
  function AnswerString(a: Answer): string {
    match a
    case NoAnswer => ""
    case TextAnswer(s) => s
    case ListAnswer(items) => Join(items, ",")
    case PairsAnswer(_) => "[object Object]"
  }

  /**
    Converting a plain object to a string calls its `toString` method. An
    object whose own "toString" entry holds a string has no such method;
    the conversion falls back to `valueOf`, which yields the object itself
    rather than a primitive, and so the conversion throws a TypeError.
   */
  predicate HasOwnToString(m: map<string, string>) {
    "toString" in m
  }

  /** Converting the stored answer `a` or the correct answer `c` to a string throws. */
  predicate StringThrows(a: Answer, c: CorrectAnswer) {
    || (a.PairsAnswer? && HasOwnToString(a.pairs))
    || (c.CorrectPairs? && HasOwnToString(c.pairs))
  }

  /** The text a correct answer reads as when converted to a string. */
  function CorrectString(c: CorrectAnswer): string {
    match c
    case CorrectText(s) => s
    case CorrectList(items) => Join(items, ",")
    case CorrectPairs(_) => "[object Object]"
  }

  /** Lower-case, then strip surrounding white space. */
  function Normalize(s: string): string {
    Trim(Lower(s))
  }

  /**
    Multiple choice: the user's list (an empty list when nothing usable was
    stored) has the length of the correct list and holds each correct option.
    A non-empty string stands in for the list with its length and substring
    search; a map never has a numeric length, so it never matches.
   */
  predicate MultipleVerdict(correct: seq<string>, a: Answer) {
    match a
    case NoAnswer => |correct| == 0
    case ListAnswer(user) => |correct| == |user| && forall v :: v in correct ==> v in user
    case TextAnswer(s) => |correct| == |s| && forall v :: v in correct ==> Contains(s, v)
    case PairsAnswer(_) => false
  }

  /**
    The string that reading property `k` of the stored answer yields, if it
    yields a string at all: a map entry, an array item or a one-character
    string at a canonical index. A missing or empty answer reads as an empty
    object, which holds no string under any key.
   */
  function Property(a: Answer, k: string): Option<string> {
    match a
    case NoAnswer => None
    case PairsAnswer(m) => if k in m then Some(m[k]) else None
    case ListAnswer(items) =>
      (match CanonicalIndex(k)
       case Some(i) => if i < |items| then Some(items[i]) else None
       case None => None)
    case TextAnswer(s) =>
      (match CanonicalIndex(k)
       case Some(i) => if i < |s| then Some([s[i]]) else None
       case None => None)
  }

  /** Matching: every key of the correct map reads the same value in the user's answer. */
  predicate MatchingVerdict(correct: map<string, string>, a: Answer) {
    forall k :: k in correct ==> Property(a, k) == Some(correct[k])
  }

  /**
    The correct answer read as an object, as `Object.keys` and property
    reads see it: a map as it is, a list or a string as its items or
    characters under their index keys.
   */
  function Entries(c: CorrectAnswer): (m: map<string, string>)
    ensures c.CorrectPairs? ==> m == c.pairs
    ensures c.CorrectList? ==> IsIndexedMap(c.items, m)
    ensures c.CorrectText? ==> IsIndexedMap(Chars(c.text), m)
  {
    match c
    case CorrectPairs(p) => p
    case CorrectList(items) => IndexedMap(items)
    case CorrectText(t) => IndexedMap(Chars(t))
  }

  /** The characters of `t`, each as a one-character string. */
  function Chars(t: string): (r: seq<string>)
    ensures |r| == |t| && forall i :: 0 <= i < |t| ==> r[i] == [t[i]]
  {
    seq(|t|, i requires 0 <= i < |t| => [t[i]])
  }

  /** The items of `xs` under their index keys. */
  function IndexedMap(xs: seq<string>): (m: map<string, string>)
    ensures IsIndexedMap(xs, m)
    decreases |xs|
  {
    if |xs| == 0 then map[]
    else
      var n := |xs| - 1;
      var front := IndexedMap(xs[..n]);
      IndexedMapStep(xs, front);
      front[IndexKey(n) := xs[n]]
  }

  /** `m` holds exactly the items of `xs`, each under its index key. */
  predicate IsIndexedMap(xs: seq<string>, m: map<string, string>) {
    && |m.Keys| == |xs|
    && (forall i :: 0 <= i < |xs| ==> IndexKey(i) in m && m[IndexKey(i)] == xs[i])
    && (forall k :: k in m ==> IsIndexKeyBelow(k, |xs|))
  }

  /** `k` is the index key of some position below `n`. */
  predicate IsIndexKeyBelow(k: string, n: nat) {
    exists i :: 0 <= i < n && k == IndexKey(i)
  }

  /** The key of the last item is not among the keys of the other items. */
  lemma LastKeyFresh(xs: seq<string>, front: map<string, string>)
    requires |xs| > 0 && IsIndexedMap(xs[..|xs| - 1], front)
    ensures IndexKey(|xs| - 1) !in front
  {
    var n := |xs| - 1;
    forall k | k in front
      ensures k != IndexKey(n)
    {
      assert IsIndexKeyBelow(k, n);
      var i :| 0 <= i < n && k == IndexKey(i);
      IndexKeyInjective(i, n);
    }
  }

  /** Adding the last item under its key extends the map of the other items. */
  lemma IndexedMapStep(xs: seq<string>, front: map<string, string>)
    requires |xs| > 0 && IsIndexedMap(xs[..|xs| - 1], front)
    ensures IsIndexedMap(xs, front[IndexKey(|xs| - 1) := xs[|xs| - 1]])
  {
    IndexedMapSize(xs, front);
    IndexedMapEntries(xs, front);
    IndexedMapKeys(xs, front);
  }

  lemma IndexedMapSize(xs: seq<string>, front: map<string, string>)
    requires |xs| > 0 && IsIndexedMap(xs[..|xs| - 1], front)
    ensures |front[IndexKey(|xs| - 1) := xs[|xs| - 1]].Keys| == |xs|
  {
    var n := |xs| - 1;
    LastKeyFresh(xs, front);
    assert front[IndexKey(n) := xs[n]].Keys == front.Keys + {IndexKey(n)};
  }

  lemma IndexedMapKeys(xs: seq<string>, front: map<string, string>)
    requires |xs| > 0 && IsIndexedMap(xs[..|xs| - 1], front)
    ensures var m := front[IndexKey(|xs| - 1) := xs[|xs| - 1]];
      forall k :: k in m ==> IsIndexKeyBelow(k, |xs|)
  {
    var n := |xs| - 1;
    var m := front[IndexKey(n) := xs[n]];
    forall k | k in m
      ensures IsIndexKeyBelow(k, |xs|)
    {
      if k == IndexKey(n) {
        assert 0 <= n < |xs| && k == IndexKey(n);
      } else {
        assert IsIndexKeyBelow(k, n);
        var i :| 0 <= i < n && k == IndexKey(i);
        assert 0 <= i < |xs| && k == IndexKey(i);
      }
    }
  }

  lemma IndexedMapEntries(xs: seq<string>, front: map<string, string>)
    requires |xs| > 0 && IsIndexedMap(xs[..|xs| - 1], front)
    ensures var m := front[IndexKey(|xs| - 1) := xs[|xs| - 1]];
      forall i :: 0 <= i < |xs| ==> IndexKey(i) in m && m[IndexKey(i)] == xs[i]
  {
    var n := |xs| - 1;
    var m := front[IndexKey(n) := xs[n]];
    forall i | 0 <= i < |xs|
      ensures IndexKey(i) in m && m[IndexKey(i)] == xs[i]
    {
      if i < n {
        assert xs[..n][i] == xs[i];
        IndexKeyInjective(i, n);
      }
    }
  }

  /** What reading `.length` of a JavaScript value yields. */
  datatype JsLength = NumberLength(n: nat) | StringLength(s: string) | Undefined

  /** `.length` of a plain object: its own "length" entry, if it has one. */
  function MapLength(m: map<string, string>): JsLength {
    if "length" in m then StringLength(m["length"]) else Undefined
  }

  /** `.length` of the user's value once a missing or empty answer is replaced by an empty list. */
  function UserLength(a: Answer): JsLength {
    match a
    case NoAnswer => NumberLength(0)
    case TextAnswer(s) => NumberLength(|s|)
    case ListAnswer(items) => NumberLength(|items|)
    case PairsAnswer(m) => MapLength(m)
  }

  /** `.length` of the correct answer. */
  function CorrectLength(c: CorrectAnswer): JsLength {
    match c
    case CorrectText(t) => NumberLength(|t|)
    case CorrectList(items) => NumberLength(|items|)
    case CorrectPairs(p) => MapLength(p)
  }

  /**
    Scoring one question: a verdict, or `None` where the check throws a
    TypeError. The text check throws when either side is an object that
    cannot be converted to a string. The multiple-choice check throws once
    the two lengths agree and it calls `every` on the correct answer, which
    a string or a plain object does not have.
   */
  function Outcome(q: Question, a: Answer): (r: Option<bool>)
    ensures r.None? <==>
      || ((q.kind == Single || q.kind == Fill) && StringThrows(a, q.correctAnswer))
      || (q.kind == Multiple && !q.correctAnswer.CorrectList?
          && UserLength(a) == CorrectLength(q.correctAnswer))
  {
    match q.kind
    case Single => TextOutcome(a, q.correctAnswer)
    case Fill => TextOutcome(a, q.correctAnswer)
    case Multiple =>
      (match q.correctAnswer
       case CorrectList(items) => Some(MultipleVerdict(items, a))
       case _ => if UserLength(a) == CorrectLength(q.correctAnswer) then None else Some(false))
    case DragDrop => Some(MatchingVerdict(Entries(q.correctAnswer), a))
  }

  /** The single-choice and fill-in check: both sides as strings, lower-cased and trimmed. */
  function TextOutcome(a: Answer, c: CorrectAnswer): Option<bool> {
    if StringThrows(a, c) then None
    else Some(Normalize(AnswerString(a)) == Normalize(CorrectString(c)))
  }

  /** Scoring question `q` against answer `a` throws. */
  predicate Throws(q: Question, a: Answer) {
    Outcome(q, a).None?
  }

  /**
    Whether the stored answer `a` to question `q` is correct: text kinds
    compare normalized strings, multiple choice is decided by length and
    containment over a list, matching compares every entry of the correct
    answer read as an object.
   */
  function Verdict(q: Question, a: Answer): (v: bool)
    ensures v ==> !Throws(q, a)
    ensures q.kind == Single || q.kind == Fill ==>
      (v <==> !StringThrows(a, q.correctAnswer)
              && Normalize(AnswerString(a)) == Normalize(CorrectString(q.correctAnswer)))
    ensures q.kind == Multiple ==>
      (v <==> q.correctAnswer.CorrectList? && MultipleVerdict(q.correctAnswer.items, a))
    ensures q.kind == DragDrop ==> (v <==> MatchingVerdict(Entries(q.correctAnswer), a))
  {
    Outcome(q, a) == Some(true)
  }

  /** The answer stored for question `id`, `NoAnswer` when there is none. */
  function Lookup(answers: map<string, Answer>, id: string): Answer {
    if id in answers then answers[id] else NoAnswer
  }

  /** One record per question, in question order. */
  function Grade(qs: seq<Question>, answers: map<string, Answer>): (records: seq<UserAnswer>)
    ensures |records| == |qs|
    ensures forall i :: 0 <= i < |qs| ==>
      && records[i].questionId == qs[i].id
      && records[i].answer == Lookup(answers, qs[i].id)
      && records[i].isCorrect == Verdict(qs[i], Lookup(answers, qs[i].id))
      && records[i].timeTaken == 0
    decreases |qs|
  {
    if |qs| == 0 then []
    else
      var ans := Lookup(answers, qs[0].id);
      var rest := Grade(qs[1..], answers);
      var records := [UserAnswer(qs[0].id, ans, Verdict(qs[0], ans), 0)] + rest;
      assert forall i :: 1 <= i < |qs| ==> records[i] == rest[i - 1] && qs[i] == qs[1..][i - 1];
      records
  }

  /** The score: how many records are marked correct. */
  function CountCorrect(records: seq<UserAnswer>): (n: nat)
    ensures n <= |records|
    ensures n == |records| <==> forall i :: 0 <= i < |records| ==> records[i].isCorrect
    decreases |records|
  {
    if |records| == 0 then 0
    else (if records[0].isCorrect then 1 else 0) + CountCorrect(records[1..])
  }

  function Verdicts(records: seq<UserAnswer>): seq<bool> {
    seq(|records|, i requires 0 <= i < |records| => records[i].isCorrect)
  }

  /** The score is the number of `true` verdicts among the records. */
  lemma {:induction false} CountCorrectCountsVerdicts(records: seq<UserAnswer>)
    ensures CountCorrect(records) == multiset(Verdicts(records))[true]
    decreases |records|
  {
    if |records| > 0 {
      assert Verdicts(records) == [records[0].isCorrect] + Verdicts(records[1..]);
      CountCorrectCountsVerdicts(records[1..]);
    }
  }

  /**
    The proficiency level, compared exactly: above 80 percent is Advanced,
    above 50 percent Intermediate, anything else Beginner.
   */
  function LevelFor(score: nat, total: nat): (l: Level)
    ensures l == Advanced <==> score * 100 > 80 * total
    ensures l == Intermediate <==> 50 * total < score * 100 <= 80 * total
    ensures l == Beginner <==> score * 100 <= 50 * total
  {
    if score * 100 > 80 * total then Advanced
    else if score * 100 > 50 * total then Intermediate
    else Beginner
  }

  function Rank(l: Level): nat {
    match l
    case Beginner => 0
    case Intermediate => 1
    case Advanced => 2
  }

  /** A higher score over the same number of questions never gives a lower level. */
  lemma LevelMonotonic(s1: nat, s2: nat, total: nat)
    requires s1 <= s2
    ensures Rank(LevelFor(s1, total)) <= Rank(LevelFor(s2, total))
  {
  }

  /** The thresholds are strict: exactly 80 percent is Intermediate, exactly 50 percent Beginner. */
  lemma LevelBoundaries()
    ensures LevelFor(4, 5) == Intermediate
    ensures LevelFor(8, 10) == Intermediate
    ensures LevelFor(1, 2) == Beginner
    ensures LevelFor(5, 10) == Beginner
    ensures LevelFor(9, 10) == Advanced
    ensures LevelFor(6, 10) == Intermediate
  {
  }

  /** Milliseconds to whole seconds, halves rounded up. */
  function RoundedSeconds(elapsedMs: int): (secs: int)
    ensures secs * 1000 - 500 <= elapsedMs < secs * 1000 + 500
  {
    (elapsedMs + 500) / 1000
  }

  /** Scoring some question of the quiz throws. */
  predicate AnyThrows(qs: seq<Question>, answers: map<string, Answer>) {
    exists i :: 0 <= i < |qs| && Throws(qs[i], Lookup(answers, qs[i].id))
  }

  /**
    Scores a finished quiz. With no questions, or when scoring some question
    throws, there is no result; otherwise the result counts every question
    once, in order.
   */
  function CalculateScore(qs: seq<Question>, answers: map<string, Answer>, topic: Option<Topic>,
                          startTime: int, now: int): (r: Option<QuizResult>)
    ensures r.None? <==> |qs| == 0 || AnyThrows(qs, answers)
    ensures r.Some? ==>
      && r.value.totalQuestions == |qs|
      && r.value.userAnswers == Grade(qs, answers)
      && r.value.score == CountCorrect(r.value.userAnswers)
      && r.value.score <= r.value.totalQuestions
      && r.value.level == LevelFor(r.value.score, r.value.totalQuestions)
      && r.value.timeSpent * 1000 - 500 <= now - startTime < r.value.timeSpent * 1000 + 500
      && r.value.topic == (if topic.Some? then topic.value.name else "")
  {
    if |qs| == 0 || AnyThrows(qs, answers) then None
    else
      var records := Grade(qs, answers);
      var score := CountCorrect(records);
      Some(QuizResult(score, |qs|, RoundedSeconds(now - startTime), LevelFor(score, |qs|),
                      if topic.Some? then topic.value.name else "", records))
  }

  // ----- Properties of the verdicts -----

  /**
    Text answers are compared case-insensitively and without surrounding
    white space: the correct text, padded and in any letter case, scores.
   */
  lemma TextVerdictIgnoresCaseAndPadding(q: Question, w1: string, t: string, w2: string)
    requires q.kind == Single || q.kind == Fill
    requires q.correctAnswer.CorrectText?
    requires AllWhitespace(w1) && AllWhitespace(w2)
    requires Lower(t) == Lower(q.correctAnswer.text)
    ensures Verdict(q, TextAnswer(w1 + t + w2))
  {
    NormalizeIgnoresPadding(w1, t, w2);
    assert Normalize(t) == Normalize(q.correctAnswer.text);
    TextScores(q, TextAnswer(w1 + t + w2));
    assert !StringThrows(TextAnswer(w1 + t + w2), q.correctAnswer);
  }

  /** Whitespace around a text does not change its normalized form. */
  lemma NormalizeIgnoresPadding(w1: string, t: string, w2: string)
    requires AllWhitespace(w1) && AllWhitespace(w2)
    ensures Normalize(w1 + t + w2) == Normalize(t)
  {
    LowerDistributes(w1 + t, w2);
    LowerDistributes(w1, t);
    LowerKeepsWhitespace(w1);
    LowerKeepsWhitespace(w2);
    TrimIgnoresPadding(w1, Lower(t), w2);
  }

  /** A text question is scored by the text check alone. */
  lemma TextScores(q: Question, a: Answer)
    requires q.kind == Single || q.kind == Fill
    ensures Verdict(q, a) == (TextOutcome(a, q.correctAnswer) == Some(true))
  {
  }

  /** A fill-in answer "  Closure " scores against the correct answer "closure". */
  lemma ClosureExample(q: Question)
    requires q.kind == Fill && q.correctAnswer == CorrectText("closure")
    ensures Verdict(q, TextAnswer("  Closure "))
  {
    assert Lower("Closure") == Lower("closure");
    assert "  Closure " == "  " + "Closure" + " ";
    TextVerdictIgnoresCaseAndPadding(q, "  ", "Closure", " ");
  }

  lemma LowerAllWhitespace(s: string)
    ensures AllWhitespace(Lower(s)) <==> AllWhitespace(s)
  {
    if AllWhitespace(Lower(s)) {
      forall i | 0 <= i < |s|
        ensures IsWhitespace(s[i])
      {
        assert IsWhitespace(Lower(s)[i]);
      }
    }
  }

  /**
    A question left unanswered is correct only when its correct answer is
    degenerate: text that is all white space, an empty list, an empty map.
   */
  lemma AbsentAnswerVerdict(q: Question)
    ensures q.kind == Single || q.kind == Fill ==>
      (Verdict(q, NoAnswer) <==> AllWhitespace(CorrectString(q.correctAnswer)))
    ensures q.kind == Multiple ==>
      (Verdict(q, NoAnswer) <==> q.correctAnswer.CorrectList? && |q.correctAnswer.items| == 0)
    ensures q.kind == DragDrop ==> (Verdict(q, NoAnswer) <==> |Entries(q.correctAnswer).Keys| == 0)
  {
    match q.kind
    case Single => AbsentTextVerdict(q);
    case Fill => AbsentTextVerdict(q);
    case Multiple =>
    case DragDrop => AbsentMatchingVerdict(q);
  }

  lemma AbsentTextVerdict(q: Question)
    requires q.kind == Single || q.kind == Fill
    ensures Verdict(q, NoAnswer) <==> AllWhitespace(CorrectString(q.correctAnswer))
  {
    var c := CorrectString(q.correctAnswer);
    if StringThrows(NoAnswer, q.correctAnswer) {
      assert c[0] == '[' && !IsWhitespace(c[0]);
    } else {
      assert Normalize("") == "";
      TrimEmptyIff(Lower(c));
      LowerAllWhitespace(c);
    }
  }

  lemma AbsentMatchingVerdict(q: Question)
    requires q.kind == DragDrop
    ensures Verdict(q, NoAnswer) <==> |Entries(q.correctAnswer).Keys| == 0
  {
    var entries := Entries(q.correctAnswer);
    if |entries.Keys| != 0 {
      var k :| k in entries;
      assert Property(NoAnswer, k) == None;
    }
  }

  /**
    A question whose correct answer has the shape its kind expects is
    scored, unless a text question meets an object that cannot be converted
    to a string.
   */
  lemma WellTypedNeverThrows(q: Question, a: Answer)
    requires WellTyped(q)
    ensures Throws(q, a) <==> (q.kind == Single || q.kind == Fill) && StringThrows(a, q.correctAnswer)
  {
  }

  /** A single-choice question with the correct answer "x". */
  function TextSingle(): Question {
    Question("s", "js", Easy, Single, "", None, None, None, CorrectText("x"), "", None)
  }

  /** A single-choice question whose correct answer is the object `pairs`. */
  function ObjectSingle(pairs: map<string, string>): Question {
    Question("s", "js", Easy, Single, "", None, None, None, CorrectPairs(pairs), "", None)
  }

  /**
    An object with its own "toString" entry cannot be converted to a
    string, so a text question answered with it, or carrying it as the
    correct answer, throws.
   */
  lemma OwnToStringThrows()
    ensures Throws(TextSingle(), PairsAnswer(map["toString" := "x"]))
    ensures Throws(ObjectSingle(map["toString" := "x"]), TextAnswer("x"))
  {
  }

  /** An object without its own "toString" entry converts to a string. */
  lemma PlainObjectConverts()
    ensures !Throws(TextSingle(), PairsAnswer(map["valueOf" := "x"]))
  {
    assert !StringThrows(PairsAnswer(map["valueOf" := "x"]), CorrectText("x"));
  }

  /** Any two such objects read as the same text "[object Object]", also as a correct answer. */
  lemma PlainObjectsReadAlike()
    ensures Verdict(ObjectSingle(map["a" := "x"]), PairsAnswer(map["b" := "y"]))
  {
    TextScores(ObjectSingle(map["a" := "x"]), PairsAnswer(map["b" := "y"]));
    assert !StringThrows(PairsAnswer(map["b" := "y"]), CorrectPairs(map["a" := "x"]));
  }

  /** A multiple-choice question with the correct answer "ab". */
  function TextMultiple(): Question {
    Question("m", "js", Easy, Multiple, "", None, None, None, CorrectText("ab"), "", None)
  }

  /**
    A multiple-choice question whose correct answer is text is never
    correct: a selection of another length is wrong, and one of the same
    length makes scoring throw.
   */
  lemma MisshapenMultipleChoice()
    ensures Throws(TextMultiple(), ListAnswer(["x", "y"]))
    ensures !Throws(TextMultiple(), ListAnswer(["x"])) && !Verdict(TextMultiple(), ListAnswer(["x"]))
    ensures Throws(TextMultiple(), TextAnswer("ab"))
    ensures forall a :: !Verdict(TextMultiple(), a)
  {
  }

  /**
    A matching question whose correct answer is a list accepts that list:
    the list's items are read back under the same index keys.
   */
  lemma MatchingOverListAcceptsIt(q: Question)
    requires q.kind == DragDrop && q.correctAnswer.CorrectList?
    ensures Verdict(q, ListAnswer(q.correctAnswer.items))
  {
    ListReadsItsItems(q.correctAnswer.items, Entries(q.correctAnswer));
  }

  /** A list read at the index keys of its own indexed map yields that map's entries. */
  lemma ListReadsItsItems(items: seq<string>, entries: map<string, string>)
    requires IsIndexedMap(items, entries)
    ensures MatchingVerdict(entries, ListAnswer(items))
  {
    forall k | k in entries
      ensures Property(ListAnswer(items), k) == Some(entries[k])
    {
      assert IsIndexKeyBelow(k, |items|);
      var i :| 0 <= i < |items| && k == IndexKey(i);
      IndexKeyIsCanonical(i);
    }
  }

  /** The order in which options were picked never changes a multiple-choice verdict. */
  lemma MultipleVerdictPermutation(correct: seq<string>, u1: seq<string>, u2: seq<string>)
    requires multiset(u1) == multiset(u2)
    ensures MultipleVerdict(correct, ListAnswer(u1)) == MultipleVerdict(correct, ListAnswer(u2))
  {
    assert |u1| == |multiset(u1)| == |multiset(u2)| == |u2|;
    forall v
      ensures v in u1 <==> v in u2
    {
      assert v in u1 <==> v in multiset(u1);
      assert v in u2 <==> v in multiset(u2);
    }
  }

  /**
    When the correct list repeats no option, the length-and-containment
    check is exactly set equality with a duplicate-free user list.
   */
  lemma MultipleVerdictIsSetEquality(correct: seq<string>, user: seq<string>)
    requires NoDuplicates(correct)
    ensures MultipleVerdict(correct, ListAnswer(user)) <==>
            (NoDuplicates(user) && Elements(user) == Elements(correct))
  {
    ElementsCardinality(correct);
    ElementsCardinality(user);
    var ec, eu := Elements(correct), Elements(user);
    if MultipleVerdict(correct, ListAnswer(user)) {
      assert ec <= eu;
      assert eu == ec + (eu - ec);
      assert |eu| == |ec| + |eu - ec|;
      assert |eu - ec| == 0;
      assert eu - ec == {};
      assert eu == ec;
    }
    if NoDuplicates(user) && eu == ec {
      assert |user| == |correct|;
      forall v | v in correct
        ensures v in user
      {
        assert v in ec;
      }
    }
  }

  /**
    With a repeated correct option the check is looser than set equality:
    ["a", "a"] accepts ["a", "b"].
   */
  lemma MultipleVerdictLooseOnDuplicates()
    ensures MultipleVerdict(["a", "a"], ListAnswer(["a", "b"]))
    ensures Elements(["a", "a"]) != Elements(["a", "b"])
  {
    assert "b" in Elements(["a", "b"]);
  }

  /** Matching accepts exactly the answers that contain the correct map. */
  lemma MatchingVerdictIsSubmap(correct: map<string, string>, user: map<string, string>)
    ensures MatchingVerdict(correct, PairsAnswer(user)) <==>
            forall k :: k in correct ==> k in user && user[k] == correct[k]
  {
  }

  /** Extra keys in the user's pairs never turn a correct matching answer incorrect. */
  lemma MatchingIgnoresExtraKeys(correct: map<string, string>, user: map<string, string>,
                                 extra: map<string, string>)
    requires MatchingVerdict(correct, PairsAnswer(user))
    requires user.Keys !! extra.Keys
    ensures MatchingVerdict(correct, PairsAnswer(user + extra))
  {
  }

  /** One mismatched pair is enough to fail: {A:1, B:2} rejects {A:1, B:3}. */
  lemma MatchingMismatchFails()
    ensures !MatchingVerdict(map["A" := "1", "B" := "2"], PairsAnswer(map["A" := "1", "B" := "3"]))
  {
    assert Property(PairsAnswer(map["A" := "1", "B" := "3"]), "B") == Some("3");
  }

  // ----- Properties of the aggregate -----

  /** Every question answered correctly gives a full score and the Advanced level. */
  lemma AllCorrectIsAdvanced(qs: seq<Question>, answers: map<string, Answer>, topic: Option<Topic>,
                             startTime: int, now: int)
    requires |qs| > 0
    requires forall i :: 0 <= i < |qs| ==> Verdict(qs[i], Lookup(answers, qs[i].id))
    ensures CalculateScore(qs, answers, topic, startTime, now).Some?
    ensures CalculateScore(qs, answers, topic, startTime, now).value.score == |qs|
    ensures CalculateScore(qs, answers, topic, startTime, now).value.level == Advanced
  {
  }

  /**
    Storing an answer for one question changes only the records of the
    questions with that identifier.
   */
  lemma AnswerAffectsOnlyItsRecord(qs: seq<Question>, answers: map<string, Answer>, id: string,
                                   a: Answer, j: int)
    requires 0 <= j < |qs|
    ensures qs[j].id != id ==> Grade(qs, answers[id := a])[j] == Grade(qs, answers)[j]
    ensures qs[j].id == id ==> Grade(qs, answers[id := a])[j].answer == a
  {
    var after, before := Grade(qs, answers[id := a]), Grade(qs, answers);
    if qs[j].id != id {
      var ans := Lookup(answers, qs[j].id);
      assert Lookup(answers[id := a], qs[j].id) == ans;
      assert after[j] == UserAnswer(qs[j].id, ans, Verdict(qs[j], ans), 0);
      assert before[j] == UserAnswer(qs[j].id, ans, Verdict(qs[j], ans), 0);
    }
  }
}

=== FILE: seqs.dfy ===
/** Facts about sequences used by the selector and the scorer. */
module Seqs {

  predicate NoDuplicates<T(==)>(s: seq<T>) {
    forall i, j :: 0 <= i < j < |s| ==> s[i] != s[j]
  }

  function Elements<T>(s: seq<T>): set<T> {
    set x | x in s
  }

  /** A sequence has at most as many distinct elements as entries, and exactly as many when it repeats none. */
  lemma {:induction false} ElementsCardinality<T>(s: seq<T>)
    ensures |Elements(s)| <= |s|
    ensures |Elements(s)| == |s| <==> NoDuplicates(s)
    decreases |s|
  {
    if |s| > 0 {
      var rest := s[1..];
      ElementsCardinality(rest);
      assert Elements(s) == {s[0]} + Elements(rest);
      if s[0] in rest {
        assert Elements(s) == Elements(rest);
        var j :| 0 <= j < |rest| && rest[j] == s[0];
        assert s[0] == s[j + 1];
        assert !NoDuplicates(s);
      } else {
        assert |Elements(s)| == |Elements(rest)| + 1;
        if NoDuplicates(s) {
          assert NoDuplicates(rest) by {
            forall i, j | 0 <= i < j < |rest|
              ensures rest[i] != rest[j]
            {
              assert rest[i] == s[i + 1] && rest[j] == s[j + 1];
            }
          }
        }
        if NoDuplicates(rest) {
          forall i, j | 0 <= i < j < |s|
            ensures s[i] != s[j]
          {
            if i > 0 {
              assert s[i] == rest[i - 1] && s[j] == rest[j - 1];
            } else {
              assert s[j] == rest[j - 1];
            }
          }
        }
      }
    }
  }

  /** The indices below `n`. */
  function Range(n: nat): (r: set<nat>)
    ensures |r| == n
    ensures forall j: nat :: j in r <==> j < n
  {
    if n == 0 then {} else Range(n - 1) + {n - 1}
  }

  /** `perm` lists every index below `n` exactly once. */
  predicate IsPermutation(perm: seq<nat>, n: nat) {
    && |perm| == n
    && (forall i :: 0 <= i < n ==> perm[i] < n)
    && (forall i, j :: 0 <= i < j < n ==> perm[i] != perm[j])
  }

  /** A permutation of the indices below `n` reaches each of them. */
  lemma PermutationCoversAll(perm: seq<nat>, n: nat)
    requires IsPermutation(perm, n)
    ensures forall j :: 0 <= j < n ==> j in perm
  {
    var values := Elements(perm);
    ElementsCardinality(perm);
    assert values <= Range(n);
    assert Range(n) == values + (Range(n) - values);
    assert |Range(n) - values| == 0;
    forall j | 0 <= j < n
      ensures j in perm
    {
      assert j in Range(n);
    }
  }

  /** The entries of `xs` at the indices `idx`, in the order of `idx`. */
  function Pick<T>(xs: seq<T>, idx: seq<nat>): (r: seq<T>)
    requires forall i :: 0 <= i < |idx| ==> idx[i] < |xs|
    ensures |r| == |idx| && forall i :: 0 <= i < |idx| ==> r[i] == xs[idx[i]]
  {
    seq(|idx|, i requires 0 <= i < |idx| => xs[idx[i]])
  }

  lemma PickAppend<T>(xs: seq<T>, a: seq<nat>, b: seq<nat>)
    requires forall i :: 0 <= i < |a| ==> a[i] < |xs|
    requires forall i :: 0 <= i < |b| ==> b[i] < |xs|
    ensures Pick(xs, a + b) == Pick(xs, a) + Pick(xs, b)
  {
    assert forall i :: 0 <= i < |a + b| ==> (a + b)[i] < |xs|;
  }

  /** Picking only indices below `m` sees nothing past the first `m` entries. */
  lemma PickPrefix<T>(xs: seq<T>, idx: seq<nat>, m: nat)
    requires m <= |xs| && forall i :: 0 <= i < |idx| ==> idx[i] < m
    ensures Pick(xs[..m], idx) == Pick(xs, idx)
  {
  }

  /** Dropping the entry that holds the largest index leaves a permutation of the smaller ones. */
  lemma DropLargest(perm: seq<nat>, n: nat, k: nat)
    requires n > 0 && IsPermutation(perm, n) && k < n && perm[k] == n - 1
    ensures IsPermutation(perm[..k] + perm[k + 1..], n - 1)
  {
    var rest := perm[..k] + perm[k + 1..];
    forall i | 0 <= i < n - 1
      ensures rest[i] == perm[if i < k then i else i + 1]
    {
    }
    forall i | 0 <= i < n - 1
      ensures rest[i] < n - 1
    {
      var j := if i < k then i else i + 1;
      assert rest[i] == perm[j] && j != k;
      assert perm[j] != perm[k];
    }
    forall i, j | 0 <= i < j < n - 1
      ensures rest[i] != rest[j]
    {
      var i' := if i < k then i else i + 1;
      var j' := if j < k then j else j + 1;
      assert rest[i] == perm[i'] && rest[j] == perm[j'] && i' < j';
    }
  }

  /** Splitting the picked indices around the entry of the last index. */
  lemma PickAround<T>(xs: seq<T>, perm: seq<nat>, k: nat)
    requires IsPermutation(perm, |xs|) && k < |xs| && perm[k] == |xs| - 1
    ensures Pick(xs, perm) == Pick(xs, perm[..k]) + [xs[|xs| - 1]] + Pick(xs, perm[k + 1..])
  {
    var before, after := perm[..k], perm[k + 1..];
    assert perm == before + ([perm[k]] + after);
    PickAppend(xs, before, [perm[k]] + after);
    PickAppend(xs, [perm[k]], after);
  }

  /** Without the entry of the last index, the rest picks from the front of `xs`. */
  lemma PickWithoutLargest<T>(xs: seq<T>, perm: seq<nat>, k: nat)
    requires IsPermutation(perm, |xs|) && k < |xs| && perm[k] == |xs| - 1
    requires IsPermutation(perm[..k] + perm[k + 1..], |xs| - 1)
    ensures Pick(xs[..|xs| - 1], perm[..k] + perm[k + 1..]) == Pick(xs, perm[..k]) + Pick(xs, perm[k + 1..])
  {
    PickPrefix(xs, perm[..k] + perm[k + 1..], |xs| - 1);
    PickAppend(xs, perm[..k], perm[k + 1..]);
  }

  /** The step of `PickPermutation`: the entry of the last index goes back in. */
  lemma PickStep<T>(xs: seq<T>, perm: seq<nat>, k: nat)
    requires IsPermutation(perm, |xs|) && k < |xs| && perm[k] == |xs| - 1
    requires IsPermutation(perm[..k] + perm[k + 1..], |xs| - 1)
    requires multiset(Pick(xs[..|xs| - 1], perm[..k] + perm[k + 1..])) == multiset(xs[..|xs| - 1])
    ensures multiset(Pick(xs, perm)) == multiset(xs)
  {
    PickWithoutLargest(xs, perm, k);
    PickAround(xs, perm, k);
    ReinsertLast(xs, Pick(xs, perm), Pick(xs[..|xs| - 1], perm[..k] + perm[k + 1..]),
                 Pick(xs, perm[..k]), Pick(xs, perm[k + 1..]));
  }

  /** Putting the last entry of `xs` back between the others restores the multiset of `xs`. */
  lemma ReinsertLast<T>(xs: seq<T>, whole: seq<T>, rest: seq<T>, left: seq<T>, right: seq<T>)
    requires |xs| > 0
    requires whole == left + [xs[|xs| - 1]] + right && rest == left + right
    requires multiset(rest) == multiset(xs[..|xs| - 1])
    ensures multiset(whole) == multiset(xs)
  {
    MultisetInsert(left, right, xs[..|xs| - 1], xs[|xs| - 1]);
    assert xs == xs[..|xs| - 1] + [xs[|xs| - 1]];
  }

  lemma MultisetInsert<T>(left: seq<T>, right: seq<T>, front: seq<T>, last: T)
    requires multiset(left + right) == multiset(front)
    ensures multiset(left + [last] + right) == multiset(front + [last])
  {
  }

  /** Reordering by a permutation keeps every entry exactly as often as before. */
  lemma {:induction false} PickPermutation<T>(xs: seq<T>, perm: seq<nat>)
    requires IsPermutation(perm, |xs|)
    ensures multiset(Pick(xs, perm)) == multiset(xs)
    decreases |xs|
  {
    var n := |xs|;
    if n > 0 {
      PermutationCoversAll(perm, n);
      assert n - 1 in perm;
      var k :| 0 <= k < n && perm[k] == n - 1;
      DropLargest(perm, n, k);
      PickPermutation(xs[..n - 1], perm[..k] + perm[k + 1..]);
      PickStep(xs, perm, k);
    }
  }
}

=== FILE: session.dfy ===
/**
  The quiz session: the three views (home, quiz, result), the selection of
  a topic's questions, the answer store, the cursor and the buttons that
  move it, and the finish step that scores the quiz.
 */
module Session {
  import opened Types
  import opened Seqs
  import opened Scoring

  /** At most this many questions make up one quiz. */
  const MaxQuestions: nat := 10

  datatype View = Home | QuizView | ResultView

  /** Everything the application keeps between user actions. */
  datatype AppState = AppState(
    view: View,
    selectedTopic: Option<Topic>,
    questions: seq<Question>,
    currentIdx: int,
    answers: map<string, Answer>,
    startTime: int,
    finalResult: Option<QuizResult>)

  function Initial(): AppState {
    AppState(Home, None, [], 0, map[], 0, None)
  }

  /** The bank's questions on topic `topicId`, in bank order. */
  function FilterTopic(bank: seq<Question>, topicId: string): (r: seq<Question>)
    ensures forall i :: 0 <= i < |r| ==> r[i].topic == topicId
    ensures forall q :: multiset(r)[q] == (if q.topic == topicId then multiset(bank)[q] else 0)
    decreases |bank|
  {
    if |bank| == 0 then []
    else
      assert bank == [bank[0]] + bank[1..];
      (if bank[0].topic == topicId then [bank[0]] else []) + FilterTopic(bank[1..], topicId)
  }

  predicate DistinctIds(qs: seq<Question>) {
    forall i, j :: 0 <= i < j < |qs| ==> qs[i].id != qs[j].id
  }

  /** Whatever the filter keeps comes from the bank. */
  lemma FilterMember(bank: seq<Question>, topicId: string, x: Question)
    requires x in FilterTopic(bank, topicId)
    ensures x in bank
  {
    assert multiset(FilterTopic(bank, topicId))[x] > 0;
    assert multiset(bank)[x] > 0;
  }

  /** The first question's id is not among the ids the filter keeps from the rest. */
  lemma HeadIdNotInFilteredRest(bank: seq<Question>, topicId: string, x: Question)
    requires DistinctIds(bank) && |bank| > 0
    requires x in FilterTopic(bank[1..], topicId)
    ensures x.id != bank[0].id
  {
    var rest := bank[1..];
    FilterMember(rest, topicId, x);
    var k :| 0 <= k < |rest| && rest[k] == x;
    assert bank[k + 1] == x;
  }

  /** Dropping the first question keeps the ids distinct. */
  lemma RestDistinctIds(bank: seq<Question>)
    requires DistinctIds(bank) && |bank| > 0
    ensures DistinctIds(bank[1..])
  {
    var rest := bank[1..];
    forall i, j | 0 <= i < j < |rest|
      ensures rest[i].id != rest[j].id
    {
      assert rest[i] == bank[i + 1] && rest[j] == bank[j + 1];
    }
  }

  /** A question put in front of distinct ids it does not share keeps them distinct. */
  lemma ConsDistinctIds(q: Question, tail: seq<Question>)
    requires DistinctIds(tail)
    requires forall x :: x in tail ==> x.id != q.id
    ensures DistinctIds([q] + tail)
  {
    var r := [q] + tail;
    forall i, j | 0 <= i < j < |r|
      ensures r[i].id != r[j].id
    {
      assert r[j] == tail[j - 1];
      if i > 0 {
        assert r[i] == tail[i - 1];
      }
    }
  }

  lemma {:induction false} FilterKeepsDistinctIds(bank: seq<Question>, topicId: string)
    requires DistinctIds(bank)
    ensures DistinctIds(FilterTopic(bank, topicId))
    decreases |bank|
  {
    if |bank| > 0 {
      var rest := bank[1..];
      RestDistinctIds(bank);
      FilterKeepsDistinctIds(rest, topicId);
      var tail := FilterTopic(rest, topicId);
      if bank[0].topic == topicId {
        forall x | x in tail
          ensures x.id != bank[0].id
        {
          HeadIdNotInFilteredRest(bank, topicId, x);
        }
        ConsDistinctIds(bank[0], tail);
        assert FilterTopic(bank, topicId) == [bank[0]] + tail;
      } else {
        assert FilterTopic(bank, topicId) == tail;
      }
    }
  }

  function Min(a: int, b: int): int {
    if a <= b then a else b
  }

  /** Reorders `xs` by the index permutation `perm`. */
  function Permute(xs: seq<Question>, perm: seq<nat>): (r: seq<Question>)
    requires IsPermutation(perm, |xs|)
    ensures |r| == |xs|
    ensures forall i :: 0 <= i < |r| ==> r[i] == xs[perm[i]]
    ensures multiset(r) == multiset(xs)
  {
    PickPermutation(xs, perm);
    Pick(xs, perm)
  }

  /** The questions of a quiz on `topicId`: shuffled by `perm`, then cut to at most ten. */
  function Select(bank: seq<Question>, topicId: string, perm: seq<nat>): seq<Question>
    requires IsPermutation(perm, |FilterTopic(bank, topicId)|)
  {
    var shuffled := Permute(FilterTopic(bank, topicId), perm);
    shuffled[..Min(MaxQuestions, |shuffled|)]
  }

  /** Every selected question is on the topic and from the bank. */
  lemma SelectionOnTopic(bank: seq<Question>, topicId: string, perm: seq<nat>)
    requires IsPermutation(perm, |FilterTopic(bank, topicId)|)
    ensures var selected := Select(bank, topicId, perm);
      forall i :: 0 <= i < |selected| ==> selected[i].topic == topicId && selected[i] in bank
  {
    var filtered := FilterTopic(bank, topicId);
    var selected := Select(bank, topicId, perm);
    forall i | 0 <= i < |selected|
      ensures selected[i].topic == topicId && selected[i] in bank
    {
      assert selected[i] == filtered[perm[i]];
      FilterMember(bank, topicId, selected[i]);
    }
  }

  /** Selecting from a bank with distinct ids gives distinct ids. */
  lemma SelectionDistinct(bank: seq<Question>, topicId: string, perm: seq<nat>)
    requires IsPermutation(perm, |FilterTopic(bank, topicId)|)
    requires DistinctIds(bank)
    ensures DistinctIds(Select(bank, topicId, perm))
  {
    var filtered := FilterTopic(bank, topicId);
    var selected := Select(bank, topicId, perm);
    FilterKeepsDistinctIds(bank, topicId);
    forall i, j | 0 <= i < j < |selected|
      ensures selected[i].id != selected[j].id
    {
      assert selected[i] == filtered[perm[i]] && selected[j] == filtered[perm[j]];
      assert perm[i] != perm[j];
    }
  }

  /** The filter keeps every bank question on the topic. */
  lemma FilterIncludes(bank: seq<Question>, topicId: string, q: Question)
    requires q in bank && q.topic == topicId
    ensures q in FilterTopic(bank, topicId)
  {
    assert multiset(bank)[q] > 0;
    assert multiset(FilterTopic(bank, topicId))[q] > 0;
  }

  /** Reordering by a permutation loses nothing. */
  lemma PermuteKeepsAll(xs: seq<Question>, perm: seq<nat>, x: Question)
    requires IsPermutation(perm, |xs|)
    requires x in xs
    ensures x in Permute(xs, perm)
  {
    PermutationCoversAll(perm, |xs|);
    var j :| 0 <= j < |xs| && xs[j] == x;
    assert j in perm;
    var i :| 0 <= i < |perm| && perm[i] == j;
    assert Permute(xs, perm)[i] == x;
  }

  /** With at most ten questions on the topic, all of them are selected. */
  lemma SelectionComplete(bank: seq<Question>, topicId: string, perm: seq<nat>)
    requires IsPermutation(perm, |FilterTopic(bank, topicId)|)
    requires |FilterTopic(bank, topicId)| <= MaxQuestions
    ensures forall q :: q in bank && q.topic == topicId ==> q in Select(bank, topicId, perm)
  {
    var filtered := FilterTopic(bank, topicId);
    var shuffled := Permute(filtered, perm);
    assert Select(bank, topicId, perm) == shuffled;
    forall q | q in bank && q.topic == topicId
      ensures q in shuffled
    {
      FilterIncludes(bank, topicId, q);
      PermuteKeepsAll(filtered, perm, q);
    }
  }

  /** The selection takes each question at most as often as the topic has it. */
  lemma SelectionWithinTopic(bank: seq<Question>, topicId: string, perm: seq<nat>)
    requires IsPermutation(perm, |FilterTopic(bank, topicId)|)
    ensures multiset(Select(bank, topicId, perm)) <= multiset(FilterTopic(bank, topicId))
  {
    var shuffled := Permute(FilterTopic(bank, topicId), perm);
    var m := Min(MaxQuestions, |shuffled|);
    assert shuffled == shuffled[..m] + shuffled[m..];
  }

  lemma SelectionFacts(bank: seq<Question>, topicId: string, perm: seq<nat>)
    requires IsPermutation(perm, |FilterTopic(bank, topicId)|)
    ensures var selected := Select(bank, topicId, perm);
      && |selected| == Min(MaxQuestions, |FilterTopic(bank, topicId)|)
      && (forall i :: 0 <= i < |selected| ==> selected[i].topic == topicId && selected[i] in bank)
      && multiset(selected) <= multiset(FilterTopic(bank, topicId))
      && (DistinctIds(bank) ==> DistinctIds(selected))
      && (|FilterTopic(bank, topicId)| <= MaxQuestions ==>
            forall q :: q in bank && q.topic == topicId ==> q in selected)
  {
    SelectionOnTopic(bank, topicId, perm);
    SelectionWithinTopic(bank, topicId, perm);
    if DistinctIds(bank) {
      SelectionDistinct(bank, topicId, perm);
    }
    if |FilterTopic(bank, topicId)| <= MaxQuestions {
      SelectionComplete(bank, topicId, perm);
    }
  }

  /**
    Starting a quiz on `topic`: the topic's questions, put in the order the
    shuffle `perm` chose, cut to at most ten; the cursor returns to the first
    question, the answers are cleared and the clock reading `now` becomes the
    start time. The previous result is left in place.
   */
  function StartQuiz(st: AppState, bank: seq<Question>, topic: Topic, perm: seq<nat>, now: int): (r: AppState)
    requires IsPermutation(perm, |FilterTopic(bank, topic.id)|)
    ensures r.view == QuizView && r.currentIdx == 0 && r.answers == map[]
    ensures r.selectedTopic == Some(topic) && r.startTime == now && r.finalResult == st.finalResult
    ensures |r.questions| == Min(MaxQuestions, |FilterTopic(bank, topic.id)|)
    ensures forall i :: 0 <= i < |r.questions| ==> r.questions[i].topic == topic.id && r.questions[i] in bank
    ensures multiset(r.questions) <= multiset(FilterTopic(bank, topic.id))
    ensures DistinctIds(bank) ==> DistinctIds(r.questions)
    ensures |FilterTopic(bank, topic.id)| <= MaxQuestions ==>
              forall q :: q in bank && q.topic == topic.id ==> q in r.questions
  {
    SelectionFacts(bank, topic.id, perm);
    AppState(QuizView, Some(topic), Select(bank, topic.id, perm), 0, map[], now, st.finalResult)
  }

  /**
    Recording an answer for the question under the cursor. Without a
    question there the state stays as it is; otherwise exactly the entry of
    that question's identifier changes.
   */
  function HandleAnswer(st: AppState, a: Answer): (r: AppState)
    ensures !(0 <= st.currentIdx < |st.questions|) ==> r == st
    ensures 0 <= st.currentIdx < |st.questions| ==>
      var id := st.questions[st.currentIdx].id;
      && r.answers.Keys == st.answers.Keys + {id}
      && r.answers[id] == a
      && (forall k :: k in st.answers && k != id ==> r.answers[k] == st.answers[k])
      && r.(answers := st.answers) == st
  {
    if !(0 <= st.currentIdx < |st.questions|) then st
    else st.(answers := st.answers[st.questions[st.currentIdx].id := a])
  }

  /** The back button: disabled on the first question. */
  function GoBack(st: AppState): (r: AppState)
    ensures st.currentIdx == 0 ==> r == st
    ensures st.currentIdx != 0 ==> r.currentIdx == st.currentIdx - 1
    ensures r.(currentIdx := st.currentIdx) == st
  {
    if st.currentIdx == 0 then st else st.(currentIdx := st.currentIdx - 1)
  }

  /** The next button: offered only before the last question. */
  function GoNext(st: AppState): (r: AppState)
    ensures st.currentIdx < |st.questions| - 1 ==> r.currentIdx == st.currentIdx + 1
    ensures st.currentIdx >= |st.questions| - 1 ==> r == st
    ensures r.(currentIdx := st.currentIdx) == st
  {
    if st.currentIdx < |st.questions| - 1 then st.(currentIdx := st.currentIdx + 1) else st
  }

  /**
    The finish button: offered only from the last question on. It scores the
    quiz and shows the result, unless there are no questions or scoring
    throws, in which case nothing happens.
   */
  function FinishQuiz(st: AppState, now: int): (r: AppState)
    ensures r != st ==> st.currentIdx >= |st.questions| - 1
    ensures var result := CalculateScore(st.questions, st.answers, st.selectedTopic, st.startTime, now);
      st.currentIdx >= |st.questions| - 1 ==>
        if result.Some? then
          && r.view == ResultView
          && r.finalResult == result
          && r.(view := st.view, finalResult := st.finalResult) == st
        else r == st
  {
    if st.currentIdx < |st.questions| - 1 then st
    else
      match CalculateScore(st.questions, st.answers, st.selectedTopic, st.startTime, now)
      case None => st
      case Some(result) => st.(finalResult := Some(result), view := ResultView)
  }

  /** The user actions the views offer. */
  datatype Event =
    | ChooseTopic(topic: Topic, perm: seq<nat>, now: int)
    | GiveAnswer(value: Answer)
    | Back
    | Next
    | Finish(now: int)
    | Leave(confirmed: bool)
    | BackToHome

  /** A topic choice carries a shuffle of that topic's questions. */
  predicate Admissible(bank: seq<Question>, ev: Event) {
    ev.ChooseTopic? ==> IsPermutation(ev.perm, |FilterTopic(bank, ev.topic.id)|)
  }

  /**
    One user action. An action whose control the current view does not show
    leaves the state as it is; the leave button needs the user's confirmation.
   */
  function Step(st: AppState, bank: seq<Question>, ev: Event): (r: AppState)
    requires Admissible(bank, ev)
    ensures ev.Leave? ==> r.view == (if st.view != Home && ev.confirmed then Home else st.view)
    ensures ev.BackToHome? && st.view == ResultView && st.finalResult.Some? ==> r.view == Home
    ensures !ev.ChooseTopic? ==> r.questions == st.questions
    ensures !ev.GiveAnswer? && !ev.ChooseTopic? ==> r.answers == st.answers
    ensures ev.ChooseTopic? ==>
      if st.view == Home then r.view == QuizView && r.currentIdx == 0 && r.answers == map[] else r == st
  {
    match ev
    case ChooseTopic(topic, perm, now) =>
      if st.view == Home then StartQuiz(st, bank, topic, perm, now) else st
    case GiveAnswer(a) =>
      if st.view == QuizView then HandleAnswer(st, a) else st
    case Back =>
      if st.view == QuizView then GoBack(st) else st
    case Next =>
      if st.view == QuizView then GoNext(st) else st
    case Finish(now) =>
      if st.view == QuizView then FinishQuiz(st, now) else st
    case Leave(confirmed) =>
      if st.view != Home && confirmed then st.(view := Home) else st
    case BackToHome =>
      if st.view == ResultView && st.finalResult.Some? then st.(view := Home) else st
  }

  /**
    What holds between actions: the questions are well formed, the cursor is
    on a question (or at 0 when there is none), and a shown result is the
    grade of the current questions and answers.
   */
  predicate Valid(st: AppState) {
    && 0 <= st.currentIdx
    && (st.currentIdx < |st.questions| || st.currentIdx == 0)
    && (st.view == ResultView ==>
          && |st.questions| > 0
          && st.finalResult.Some?
          && !AnyThrows(st.questions, st.answers)
          && st.finalResult.value.totalQuestions == |st.questions|
          && st.finalResult.value.userAnswers == Grade(st.questions, st.answers)
          && st.finalResult.value.score == CountCorrect(st.finalResult.value.userAnswers)
          && st.finalResult.value.level == LevelFor(st.finalResult.value.score, |st.questions|))
  }

  lemma InitialValid()
    ensures Valid(Initial())
  {
  }

  /** Every action keeps the state valid. */
  lemma StepPreservesValid(st: AppState, bank: seq<Question>, ev: Event)
    requires Valid(st) && Admissible(bank, ev)
    ensures Valid(Step(st, bank, ev))
  {
  }

  /** The state after a sequence of actions. */
  function Run(st: AppState, bank: seq<Question>, evs: seq<Event>): AppState
    requires forall i :: 0 <= i < |evs| ==> Admissible(bank, evs[i])
    decreases |evs|
  {
    if |evs| == 0 then st
    else Run(Step(st, bank, evs[0]), bank, evs[1..])
  }

  /** Any sequence of actions from a valid state ends in a valid state. */
  lemma {:induction false} RunPreservesValid(st: AppState, bank: seq<Question>, evs: seq<Event>)
    requires Valid(st)
    requires forall i :: 0 <= i < |evs| ==> Admissible(bank, evs[i])
    ensures Valid(Run(st, bank, evs))
    decreases |evs|
  {
    if |evs| > 0 {
      StepPreservesValid(st, bank, evs[0]);
      RunPreservesValid(Step(st, bank, evs[0]), bank, evs[1..]);
    }
  }

  /** In a valid quiz with questions, the cursor is always on one of them. */
  lemma CursorInRange(st: AppState)
    requires Valid(st) && |st.questions| > 0
    ensures 0 <= st.currentIdx < |st.questions|
  {
  }

  /** The result view is reached from the quiz only at the last question. */
  lemma FinishOnlyAtLastQuestion(st: AppState, bank: seq<Question>, now: int)
    requires Valid(st) && st.view == QuizView
    requires Step(st, bank, Finish(now)).view == ResultView
    ensures st.currentIdx == |st.questions| - 1
  {
  }

  /** Finishing a quiz without questions produces no result and stays in the quiz. */
  lemma EmptyQuizCannotFinish(st: AppState, bank: seq<Question>, now: int)
    requires |st.questions| == 0
    ensures Step(st, bank, Finish(now)) == st
  {
  }

  /** When scoring some question throws, finishing leaves the state unchanged. */
  lemma ThrowingQuestionBlocksFinish(st: AppState, bank: seq<Question>, now: int)
    requires st.view == QuizView && AnyThrows(st.questions, st.answers)
    ensures Step(st, bank, Finish(now)) == st
  {
  }

  /** Back does nothing on the first question; next does nothing on the last. */
  lemma NavigationStopsAtEnds(st: AppState, bank: seq<Question>)
    requires Valid(st) && st.view == QuizView
    ensures st.currentIdx == 0 ==> Step(st, bank, Back) == st
    ensures st.currentIdx == |st.questions| - 1 ==> Step(st, bank, Next) == st
    ensures 0 <= Step(st, bank, Back).currentIdx
    ensures |st.questions| > 0 ==> Step(st, bank, Next).currentIdx < |st.questions|
  {
  }
}

=== FILE: types.dfy ===
/**
  The data model of the quiz engine: questions, the answers a user gives,
  the per-question records and the quiz result.
 */
module Types {

  datatype Option<+T> = None | Some(value: T)

  /** The four question kinds and the string tags the bank uses for them. */
  datatype QuestionType = Single | Multiple | Fill | DragDrop
  {
    function Tag(): string {
      match this
      case Single => "single"
      case Multiple => "multiple"
      case Fill => "fill"
      case DragDrop => "drag-drop"
    }
  }

  /** Reads a question-type tag back; unknown tags have no type. */
  function ParseQuestionType(tag: string): (r: Option<QuestionType>)
    ensures r.Some? ==> r.value.Tag() == tag
    ensures forall t: QuestionType :: t.Tag() == tag ==> r == Some(t)
  {
    if tag == "single" then Some(Single)
    else if tag == "multiple" then Some(Multiple)
    else if tag == "fill" then Some(Fill)
    else if tag == "drag-drop" then Some(DragDrop)
    else None
  }

  datatype Difficulty = Easy | Medium | Hard

  datatype MatchingPair = MatchingPair(id: string, left: string, right: string)

  /** The three shapes a correct answer can take. */
  datatype CorrectAnswer =
    | CorrectText(text: string)
    | CorrectList(items: seq<string>)
    | CorrectPairs(pairs: map<string, string>)

  datatype Question = Question(
    id: string,
    topic: string,
    difficulty: Difficulty,
    kind: QuestionType,
    questionText: string,
    codeSnippet: Option<string>,
    options: Option<seq<string>>,
    matchingPairs: Option<seq<MatchingPair>>,
    correctAnswer: CorrectAnswer,
    explanation: string,
    reference: Option<string>)

  /**
    What the answer store holds for a question. The application keeps an
    untyped value; here it is a tagged union whose cases mirror the
    correct-answer shapes, plus `NoAnswer` for a question never answered.
   */
  datatype Answer =
    | NoAnswer
    | TextAnswer(text: string)
    | ListAnswer(items: seq<string>)
    | PairsAnswer(pairs: map<string, string>)

  /** One scored question of a finished quiz. */
  datatype UserAnswer = UserAnswer(questionId: string, answer: Answer, isCorrect: bool, timeTaken: int)

  datatype Level = Beginner | Intermediate | Advanced

  /** The summary of a finished quiz (the floating-point percentage is not kept). */
  datatype QuizResult = QuizResult(
    score: nat,
    totalQuestions: nat,
    timeSpent: int,
    level: Level,
    topic: string,
    userAnswers: seq<UserAnswer>)

  datatype Topic = Topic(id: string, name: string, icon: string, description: string)

  /**
    The shape the bank gives each kind's correct answer: a list for multiple
    choice and a map for matching. The scorer also handles other shapes;
    see `Scoring.Outcome`.
   */
  predicate WellTyped(q: Question) {
    match q.kind
    case Multiple => q.correctAnswer.CorrectList?
    case DragDrop => q.correctAnswer.CorrectPairs?
    case _ => true
  }
}
